=== FILE: README.md ===
# gotify in Dafny

A functional model of the pure core of gotify, a thin Go client for the Spotify
Web API. There are two components:

- **API calls** (gotify.go). Identifier resolution (`parseId`), the comma-joined
  batch ID string (`buildIdString`), and each public endpoint as a request
  builder: verb, resource path and parameter list. `call` turns a request into a
  URL with a bearer header and sorts the HTTP answer into body or error.
- **OAuth2** (oauth2.go). Token expiry, the authorize URL, the
  authorization-code and refresh grants, refresh-token retention, the token cache
  (`GetCachedToken`, `saveTokenInfo`) and reading the code from the redirect.

The model has no I/O. Time is passed in as an integer count of nanoseconds since
the Unix epoch. Every call returns its Go result pair together with the requests
it sent and the cache writes it made. The inputs are:

- the answer of the HTTP exchange: the request could not be built, or a status
  and a body that did or did not read/decode;
- the cache-file read;
- whether JSON encoding succeeded.

Modules: `Common` (Option, the client's error values), `Text` (Go's
`strings.Split`/`Join`/`Cut`, byte order, `%d`), `Query` (`url.Values`, Add,
QueryEscape/QueryUnescape, `Encode` with its stable key sort, `ParseQuery`, the
raw query of a URL), `Ids`, `Api` and `OAuth`.

## Behaviour as written

The code declares `err` a second time with `:=` inside several blocks, so errors
stored there are never returned. The model reproduces this and proves what it
leads to:

- `sendAccessTokenRequest` (oauth2.go:138): a non-200 answer or a body that does
  not decode gives the zero `Token` and a **nil** error. Only a request that
  cannot be built is reported. So `RefreshAccessToken` answers a refused refresh,
  or a 200 whose body does not decode, with a zero token that carries the
  caller's refresh token, and writes it to the cache.
- `GetCachedToken` (oauth2.go:46): never returns an error. A missing path, an
  unreadable file and an undecodable fresh token all give the zero token. An
  expired token is refreshed even when its decode failed. When that refresh
  request cannot be built, its error is lost too, and the zero token comes back
  with a nil error.
- `saveTokenInfo` (oauth2.go:159): returns nil on every path. A failed write is
  not reported.
- `call` (gotify.go:45): a body that cannot be read after a 200/201 gives `""`
  with a nil error.

`parseId` (gotify.go:184-190) tries the `spotify:kind:id` form first, on any
string with exactly two `:`. A link whose host carries a port, such as
`https://h:8/track/abc`, has two `:` and so resolves to `8/track/abc`, not to
`abc`. `Ids.LinkWithPort` proves this; `Ids.ParseIdForms` states the link form
for port-free hosts only for this reason.

The model therefore does not claim that a non-200 token response yields an
error. Only the API `call` reports a non-accepted status (as `resp.Status`).

## Model

| member | source | states |
|---|---|---|
| Text.Split | gotify.go:184-191 | strings.Split on one character: one more piece than there are separators, and no piece holds the separator |
| Text.JoinSplit | gotify.go:184-191 | joining the pieces of a split with the same separator gives back the input |
| Text.SplitJoin | gotify.go:174-180 | splitting a join of separator-free pieces gives back exactly those pieces |
| Text.LastFieldIsAfterLast | gotify.go:191-196 | the last piece of a split is the text after the last separator |
| Text.Cut | oauth2.go:123-127 | the text before the first delimiter, and the rest after it; no delimiter means the whole string |
| Text.DecimalRoundTrip | gotify.go:150-151 | the decimal text `%d` prints for limit and offset reads back as the same integer |
| Query.Add | gotify.go:75-76 | Values.Add appends the value after the key's earlier values (so the first value stays first), leaves every other key unchanged, and grows the list by one |
| Query.QueryEscape | gotify.go:130 | the output uses only unreserved characters, `+` and `%`, and an unreserved input is left unchanged |
| Query.UnescapeEscape | oauth2.go:127 | unescaping the output of QueryEscape gives back any ASCII string |
| Query.SortByKey | gotify.go:26 | the keys Encode writes are in sorted order, and the entries are the input's entries (a permutation) |
| Query.SortByKeyStable | gotify.go:26 | sorting keeps each key's values in the order they were added |
| Query.SortByKeyLookup | oauth2.go:128 | the first value of each key is the same before and after sorting |
| Query.Encode | gotify.go:26 | no values give `""`; otherwise splitting the result at `&` gives one escaped `key=value` piece per entry, in key-sorted order; the result never contains `?` or `#` |
| Query.QueryUnescape | oauth2.go:127 | a string with no `%` and no `+` is returned unchanged; a decoded string is never longer than its input; a `%` anywhere that is not followed by two hexadecimal digits makes the whole result an error |
| Query.ParseQuery | oauth2.go:127 | a query without `&` is read as a single `key=value` piece; there are never more entries than `&`-separated pieces |
| Query.ParsePieces | oauth2.go:127 | each entry read is what some single piece of the query parses to, and there are no more entries than pieces |
| Query.LookupParsePieces | oauth2.go:127-128 | the first value read for a key comes from the first piece that parses to that key, and no earlier piece yields the key |
| Query.ParseQueryEncode | gotify.go:26 | parsing an encoded query gives back every entry, keys sorted, each key's values in the order added |
| Query.RawQuery | oauth2.go:123-127 | a URL without `?` has an empty query; in a URL without `#` the query is everything after the first `?`; the query never holds `#` |
| Query.RawQueryOf | oauth2.go:123-127 | the raw query of `base?query` is `query` |
| Ids.ParseId | gotify.go:183-199 | exactly two `:` give the text after the last `:`; otherwise at least two `/` give the text after the last `/`; otherwise the input itself |
| Ids.TypeMismatch | gotify.go:186-195 | a warning can only fire on a string with exactly two `:` or at least two `/`, the two shapes parseId takes apart |
| Ids.IdTypeIgnored | gotify.go:186-195 | the expected type never changes the ID returned; a mismatch only logs |
| Ids.ParseIdOfUri | gotify.go:184-190 | `a:kind:id` resolves to `id` for any kind and any expected type; the warning fires exactly when kind differs from the expected type |
| Ids.ParseIdOfLink | gotify.go:191-197 | `prefix/kind/id` resolves to `id`; the warning fires exactly when kind differs from the expected type |
| Ids.ParseIdBare | gotify.go:198 | a string with no `:` and no `/` is returned unchanged |
| Ids.ParseIdForms | gotify.go:182-198 | the bare ID, its `spotify:kind:id` URI and its `scheme://host/kind/id` link all resolve to the same ID |
| Ids.LinkWithPort | gotify.go:184-190 | a link whose host has a port has two `:` and resolves to everything after the port's `:` |
| Ids.UriBeforeLink | gotify.go:184-191 | the `:` form is checked first, so `spotify:track:a/b/c` resolves to `a/b/c` |
| Ids.ResolveAll | gotify.go:175-178 | element i of the result is parseId of element i of the input |
| Ids.BuildIdString | gotify.go:174-180 | an empty list gives `""`; one element gives its ID with no comma |
| Ids.BuildIdStringSplit | gotify.go:174-180 | splitting the result on `,` gives each element's ID in input order (IDs without commas) |
| Ids.BuildIdStringSnoc | gotify.go:174-180 | one more element appends `,` and its ID |
| Api.BaseUrlPlain | gotify.go:15-17 | the base URL is `https://api.spotify.com/v1/` and holds no `?` or `#` |
| Api.Describe | gotify.go:58-172 | only AddTracksToPlaylist and CreatePlaylist are POST; every other endpoint is GET |
| Api.SearchParams | gotify.go:146-154 | search sends q as given, type escaped once, and limit and offset in decimal |
| Api.Url | gotify.go:23-27 | the URL starts with the base URL and the path; for a path free of `?` and `#` the query is empty for nil params and is the encoded params otherwise; the length is base + path, plus `?` and the encoded params when there are params, so nothing else is appended |
| Api.Call | gotify.go:19-56 | a body comes back only for 200/201; any other status gives `""` and the status line as error; an unbuildable request gives a request error; a sent request goes to the call's URL, carries `Bearer` + access token, and has the Content-Type `application/json` exactly when it is a POST |
| Api.Send | gotify.go:58-172 | an endpoint's call fails exactly when the answer is missing or not 200/201; the request carries the bearer token; only AddTracksToPlaylist and CreatePlaylist are sent as POST, and exactly those carry Content-Type `application/json` |
| Api.UrlQuery | gotify.go:23-27 | the URL starts with base URL + path; nil params give no query; otherwise the query reads back as the params |
| Api.ResolvingEndpoints | gotify.go:67-104 | Album, AlbumTracks, Artist, ArtistAlbums and ArtistTopTracks give the same request for a URI as for its bare ID |
| Api.TrackKeepsRawId | gotify.go:157-166 | Track puts a URI into the path unresolved, unlike Tracks, which sends the bare ID |
| Api.BatchSendsOneIdsParam | gotify.go:72-78 | Albums (and likewise Artists and Tracks) send exactly one `ids` parameter: the buildIdString of the list |
| Api.AddTracksKeepsUris | gotify.go:58-64 | AddTracksToPlaylist joins the URIs with commas into the path unresolved, with nil params |
| Api.SearchQueryAsReceived | gotify.go:146-154 | a search URL decodes to q, the once-escaped type (so the type is escaped twice on the wire), and the paging numbers |
| OAuth.IsExpired | oauth2.go:34-39 | expired exactly when now >= ExpiresAt, so the boundary counts as expired |
| OAuth.ExpiredStaysExpired | oauth2.go:34-39 | an expired token stays expired at any later time |
| OAuth.EmptyTokenExpired | oauth2.go:34-39 | the zero token (zero time) is expired at every time from year 1 on |
| OAuth.AuthorizeParams | oauth2.go:66-75 | client_id, response_type=code and redirect_uri are always present; scope and state only when non-empty |
| OAuth.RequiredAuthorizeParams | oauth2.go:66-69 | the three always-present parameters, without scope or state |
| OAuth.GetAuthorizeURL | oauth2.go:62-80 | the URL is the authorize endpoint, then `?`, then a raw query equal to the encoded authorize parameters, with no fragment |
| OAuth.AuthorizeUrlQuery | oauth2.go:62-80 | the query of the authorize URL reads back as those parameters in sorted order; scope and state appear exactly when configured |
| OAuth.AccessTokenParams | oauth2.go:86-89 | the code grant sends exactly redirect_uri, code and grant_type=authorization_code |
| OAuth.RefreshParams | oauth2.go:103-105 | the refresh grant sends exactly refresh_token and grant_type=refresh_token |
| OAuth.SendAccessTokenRequest | oauth2.go:132-154 | status 200 with a decoded token sets ExpiresAt = now + TTL seconds; non-200 or a decode failure gives the zero token and no error; only an unbuildable request is an error |
| OAuth.GrantedTokenLifetime | oauth2.go:145 | a granted token is expired at time t exactly when t >= now + TTL seconds |
| OAuth.SaveTokenInfo | oauth2.go:156-166 | never returns an error; writes the token once, to CachePath, exactly when a path is set and encoding succeeded |
| OAuth.GetAccessToken | oauth2.go:84-99 | one code-grant request to the token endpoint with the client's id and secret as credentials; the token returned is the one sent back and the one saved; only an unbuildable request is an error, and then nothing is sent or written |
| OAuth.RefreshAccessToken | oauth2.go:102-118 | one refresh-grant request with the caller's refresh token; the result is saved; only an unbuildable request is an error |
| OAuth.RefreshKeepsRefreshToken | oauth2.go:107-115 | an empty refresh token in the response is replaced by the caller's; a non-empty one is kept; other fields come from the response |
| OAuth.RefusedRefreshIsNotAnError | oauth2.go:138-153 | a non-200 refresh (whatever body came back) or a 200 whose body does not decode gives no error and the zero token with the caller's refresh token, and that token is written to the cache |
| OAuth.GetCachedToken | oauth2.go:42-58 | never returns an error and sends at most one request |
| OAuth.CachedTokenAbsent | oauth2.go:45-57 | with no cache path or an unreadable file: the zero token, no error, no request, no write |
| OAuth.CachedTokenFresh | oauth2.go:47-54 | a fresh cached token is returned as read (the zero token if its decode failed), with no request |
| OAuth.CachedTokenExpired | oauth2.go:49-57 | an expired cached token triggers exactly one refresh with its own refresh token, stamped with the clock reading taken at the refresh; an answered refresh is returned and saved; a refresh request that cannot be built gives the zero token with no error, no request and no write |
| OAuth.ParseResponseCode | oauth2.go:122-130 | the code returned is the value of some `&`-separated piece of the redirect's query that parses to `code=value`, and no earlier piece yields a `code` |
| OAuth.ResponseCodeRoundTrip | oauth2.go:122-130 | a redirect `uri?` plus encoded parameters yields the first code value put in |
| OAuth.RedirectWithoutCode | oauth2.go:127-128 | a redirect whose query has no code falls outside ParseResponseCode's precondition |

## Left out

- Network I/O: `http.Client`, `client.Do`, reading and closing response bodies.
  The answer is an input. A failed `client.Do` is not modelled. As written, the
  `defer resp.Body.Close()` at gotify.go:41 and oauth2.go:139 runs before the
  error check and would dereference a nil response.
- Why `http.NewRequest` fails: the model only has "could not be built"
  (`Unsendable`).
- The JSON request body of `call` and its bracket stripping (gotify.go:31-32):
  this depends on `encoding/json` output. The `application/json` Content-Type
  header on POST is modelled.
- `json.Marshal`/`Unmarshal` and the JSON field names. Decoding results are
  inputs: a decoded token, or a decode failure.
- `ioutil.ReadFile`/`WriteFile`: the read is an input and the write is recorded.
  The write's own result is never looked at by the source.
- `time.Now`/`time.Since`: the current time is a parameter. `GetCachedToken`
  reads the clock twice, for the expiry check (oauth2.go:35) and for the
  refreshed token's expiry (oauth2.go:145); the model takes two parameters,
  `now` and `granted`, and assumes no order between them. Duration saturation
  at 64 bits, the monotonic clock reading and overflow of `TTL * time.Second`
  are not modelled.
- `log.Print` warnings: `Ids.TypeMismatch` says when a warning fires, but the
  message text is not modelled. At gotify.go:194 the message prints `fields[1]`
  rather than the type segment it compared.
- `strings.ToUpper` of the verb: the verbs are the constants GET and POST.
- Go's 64-bit `int` for limit and offset: integers here are unbounded.
- The `url.Parse` error branches of `GetAuthorizeURL` and `ParseResponseCode`.
  Parsing the constant authorize endpoint cannot fail. Any redirect string is
  treated as parseable.
- Query.QueryUnescape: an escape of a byte at or above hexadecimal 80 (a UTF-8
  byte of a non-ASCII character) counts as malformed, while Go decodes it.
  Go strings are byte strings; Dafny strings are characters.
- Query.ParseQuery: follows current Go. A piece holding `;` is skipped.
- Query.ParseQueryEncode: stated for ASCII keys and values only, because of the
  unescaping limit above.
- Query.UnescapeEscape: stated for ASCII strings only, because of the
  unescaping limit above.
- Api.UrlQuery: the read-back of the query is stated for ASCII params only, for
  the same reason.
- OAuth.ResponseCodeRoundTrip: stated for an ASCII code and ASCII parameters
  only, for the same reason.
- OAuth.RedirectWithoutCode: stated for ASCII parameters only, for the same
  reason.
- OAuth.AuthorizeUrlQuery: stated for an ASCII configuration only, for the same
  reason.
- Api.SearchQueryAsReceived: stated for an ASCII query text only, for the same
  reason.
- OAuth.ParseResponseCode: a redirect without a `code` is excluded by its
  precondition. The source indexes `q["code"][0]` unchecked (oauth2.go:128) and
  panics on such a redirect.

=== FILE: api.dfy ===
/** The Web API calls of gotify.go. Each public function is a request builder
    (an HTTP verb, a resource path under the versioned base URL, and an optional
    parameter list), and `call` turns the request into a URL with a bearer
    header and classifies the HTTP answer. The answer is an input. */
module Api {

  import opened Common
  import opened Text
  import opened Query
  import opened Ids
  import OAuth

  const Version := 1

  /** The versioned base URL every resource path is appended to. */
  const APIUrl := "https://api.spotify.com/v" + Decimal(Version) + "/"

  datatype Verb = Get | Post

  /** The method string sent on the wire (`strings.ToUpper` of the verb). */
  function Method(verb: Verb): string
  {
    match verb
    case Get => "GET"
    case Post => "POST"
  }

  /** What an endpoint hands to `call`: verb, path, and parameters (`None` for Go's nil). */
  datatype Request = Request(verb: Verb, path: string, params: Option<Values>)

  /** The public API functions, one constructor each, with their arguments. */
  datatype Endpoint =
    | AddTracksToPlaylist(userId: string, playlistId: string, uris: seq<string>)
    | Album(id: string)
    | Albums(items: seq<string>)
    | AlbumTracks(id: string)
    | Artist(id: string)
    | ArtistAlbums(id: string)
    | ArtistTopTracks(id: string, country: string)
    | Artists(items: seq<string>)
    | CreatePlaylist(userId: string, name: string, public: bool)
    | Me
    | Playlist(userId: string, playlistId: string, fields: string)
    | Playlists(userId: string)
    | PlaylistTracks(userId: string, playlistId: string, fields: string)
    | Search(q: string, qType: string, limit: int, offset: int)
    | Track(id: string)
    | Tracks(items: seq<string>)
    | User(userId: string)

  /** fmt's %v of a bool. */
  function FormatBool(b: bool): string
  {
    if b then "true" else "false"
  }

  /** The single `ids` parameter of a batch lookup. */
  function IdsParam(items: seq<string>, idType: string): Values
  {
    Add([], "ids", BuildIdString(items, idType))
  }

  /** The request each public function passes to `call`. Only the two
      playlist-changing functions POST. */
  function Describe(e: Endpoint): (r: Request)
    ensures r.verb == Post <==> e.AddTracksToPlaylist? || e.CreatePlaylist?
  {
    match e
    case AddTracksToPlaylist(userId, playlistId, uris) =>
      Request(Post, "users/" + userId + "/playlists/" + playlistId + "/tracks?uris=" + Join(uris, ","), None)
    case Album(id) =>
      Request(Get, "albums/" + ParseId("album", id), None)
    case Albums(items) =>
      Request(Get, "albums", Some(IdsParam(items, "album")))
    case AlbumTracks(id) =>
      Request(Get, "albums/" + ParseId("album", id) + "/tracks", None)
    case Artist(id) =>
      Request(Get, "artists/" + ParseId("artist", id), None)
    case ArtistAlbums(id) =>
      Request(Get, "artists/" + ParseId("artist", id) + "/albums", None)
    case ArtistTopTracks(id, country) =>
      Request(Get, "artists/" + ParseId("artist", id) + "/top-tracks", Some(Add([], "country", country)))
    case Artists(items) =>
      Request(Get, "artists", Some(IdsParam(items, "artist")))
    case CreatePlaylist(userId, name, public) =>
      Request(Post, "users/" + userId + "/playlists", Some(Add(Add([], "name", name), "public", FormatBool(public))))
    case Me =>
      Request(Get, "me", None)
    case Playlist(userId, playlistId, fields) =>
      Request(Get, "users/" + userId + "/playlists/" + playlistId, Some(Add([], "fields", QueryEscape(fields))))
    case Playlists(userId) =>
      Request(Get, "users/" + userId + "/playlists", None)
    case PlaylistTracks(userId, playlistId, fields) =>
      Request(Get, "users/" + userId + "/playlists/" + playlistId + "/tracks", Some(Add([], "fields", QueryEscape(fields))))
    case Search(q, qType, limit, offset) =>
      Request(Get, "search", Some(SearchParams(q, qType, limit, offset)))
    case Track(id) =>
      Request(Get, "tracks/" + id, None)
    case Tracks(items) =>
      Request(Get, "tracks", Some(IdsParam(items, "track")))
    case User(userId) =>
      Request(Get, "users/" + userId, None)
  }

  /** Search's parameters: the query as given, the type escaped once here (and
      again by Encode), and the paging numbers in decimal. */
  function SearchParams(q: string, qType: string, limit: int, offset: int): (v: Values)
    ensures Lookup(v, "q") == Some(q)
    ensures Lookup(v, "type") == Some(QueryEscape(qType))
    ensures Lookup(v, "limit") == Some(Decimal(limit))
    ensures Lookup(v, "offset") == Some(Decimal(offset))
  {
    var a := Add([], "q", q);
    var b := Add(a, "type", QueryEscape(qType));
    var c := Add(b, "limit", Decimal(limit));
    Add(c, "offset", Decimal(offset))
  }

  // ---------------------------------------------------------------------------
  // call

  /** The outgoing HTTP request: method, URL, Authorization header and, for a
      POST, the Content-Type header. */
  datatype HttpRequest = HttpRequest(verb: string, url: string, authorization: string, contentType: Option<string>)

  /** What happened to the request: it could not be built, or it was answered
      with a status code, a status line, and a body that could or could not be read. */
  datatype ApiExchange =
    | Unsendable
    | Answered(statusCode: int, status: string, body: Option<string>)

  /** The (string, error) `call` returns, with the request it sent. */
  datatype Reply = Reply(body: string, err: Option<Error>, sent: Option<HttpRequest>)

  /** The URL of a call: the base URL and path, then `?` and the encoded
      parameters unless they are nil. */
  function Url(path: string, params: Option<Values>): (u: string)
    ensures |APIUrl + path| <= |u| && u[..|APIUrl + path|] == APIUrl + path
    ensures '?' !in path && '#' !in path ==> RawQuery(u) == (if params.Some? then Encode(params.value) else "")
    ensures |u| == |APIUrl + path| + (if params.Some? then 1 + |Encode(params.value)| else 0)
  {
    BaseUrlPlain();
    match params
    case None => APIUrl + path
    case Some(v) =>
      var query := Encode(v);
      PlainQuery(path, query);
      PrefixOfConcat(APIUrl + path, "?" + query);
      assert APIUrl + path + "?" + query == (APIUrl + path) + ("?" + query);
      APIUrl + path + "?" + query
  }

  /** A path free of `?` and `#` leaves the query after the one `?` intact. */
  lemma PlainQuery(path: string, query: string)
    requires '#' !in query
    ensures '?' !in path && '#' !in path ==> RawQuery(APIUrl + path + "?" + query) == query
  {
    if '?' !in path && '#' !in path {
      BaseUrlPlain();
      RawQueryOf(APIUrl + path, query);
    }
  }

  predicate Accepted(statusCode: int)
  {
    statusCode == 200 || statusCode == 201
  }

  /** call. A body is returned only for an accepted status (200 or 201); any
      other status gives "" and the status line as the error. Reading the body
      of an accepted answer stores its error in a variable declared inside the
      block, so a failed read gives "" with no error. */
  function Call(path: string, verb: Verb, params: Option<Values>, token: OAuth.Token, ex: ApiExchange): (r: Reply)
    ensures r.body != "" ==> r.err == None && ex.Answered? && Accepted(ex.statusCode)
    ensures r.err == None <==> ex.Answered? && Accepted(ex.statusCode)
    ensures ex.Answered? && !Accepted(ex.statusCode) ==> r.body == "" && r.err == Some(StatusError(ex.status))
    ensures ex.Answered? && Accepted(ex.statusCode) ==> r.body == (if ex.body.Some? then ex.body.value else "")
    ensures ex.Unsendable? ==> r == Reply("", Some(RequestError), None)
    ensures ex.Answered? ==> r.sent.Some? && r.sent.value.authorization == "Bearer " + token.accessToken
    ensures ex.Answered? ==> r.sent.Some? && r.sent.value.url == Url(path, params)
    ensures ex.Answered? ==> r.sent.Some? && r.sent.value.verb == Method(verb)
    ensures ex.Answered? ==> r.sent.Some? && r.sent.value.contentType == (if verb == Post then Some("application/json") else None)
  {
    match ex
    case Unsendable => Reply("", Some(RequestError), None)
    case Answered(code, status, body) =>
      var request := HttpRequest(Method(verb), Url(path, params), "Bearer " + token.accessToken,
                                 if verb == Post then Some("application/json") else None);
      if Accepted(code) then
        match body
        case Some(b) => Reply(b, None, Some(request))
        case None => Reply("", None, Some(request))
      else
        Reply("", Some(StatusError(status)), Some(request))
  }

  /** The Content-Type header an endpoint's request carries. */
  function JsonFor(e: Endpoint): Option<string>
  {
    if e.AddTracksToPlaylist? || e.CreatePlaylist? then Some("application/json") else None
  }

  /** One public API function called with a token: it fails exactly when the
      call does, and only the two playlist-changing functions POST, with a JSON
      Content-Type. */
  function Send(e: Endpoint, token: OAuth.Token, ex: ApiExchange): (r: Reply)
    ensures r.err == None <==> ex.Answered? && Accepted(ex.statusCode)
    ensures ex.Answered? ==> r.sent.Some? && r.sent.value.authorization == "Bearer " + token.accessToken
    ensures ex.Answered? ==> r.sent.Some? && (r.sent.value.verb == "POST" <==> e.AddTracksToPlaylist? || e.CreatePlaylist?)
    ensures ex.Answered? ==> r.sent.Some? && r.sent.value.contentType == JsonFor(e)
  {
    var req := Describe(e);
    Call(req.path, req.verb, req.params, token, ex)
  }

  // ---------------------------------------------------------------------------
  // Properties of the requests.

  lemma BaseUrlPlain()
    ensures APIUrl == "https://api.spotify.com/v1/"
    ensures '?' !in APIUrl && '#' !in APIUrl
  {
  }

  /** The URL starts with the base URL and the path. With nil parameters there
      is no query at all; otherwise the query reads back as the parameters,
      keys sorted and each key's values in the order they were added. */
  lemma UrlQuery(path: string, params: Option<Values>)
    requires '?' !in path && '#' !in path
    ensures |APIUrl + path| <= |Url(path, params)| && Url(path, params)[..|APIUrl + path|] == APIUrl + path
    ensures params.None? ==> RawQuery(Url(path, params)) == ""
    ensures params.Some? ==> RawQuery(Url(path, params)) == Encode(params.value)
    ensures params.Some? && AsciiValues(params.value) ==>
      ParseQuery(RawQuery(Url(path, params))) == SortByKey(params.value)
  {
    if params.Some? && AsciiValues(params.value) {
      ParseQueryEncode(params.value);
    }
  }

  /** Album, AlbumTracks, Artist, ArtistAlbums and ArtistTopTracks resolve their
      ID: a `spotify:kind:id` URI gives the same request as the bare ID. */
  lemma ResolvingEndpoints(kind: string, id: string, country: string)
    requires ':' !in kind && ':' !in id && '/' !in id
    ensures var uri := "spotify:" + kind + ":" + id;
      && Describe(Album(uri)) == Describe(Album(id))
      && Describe(AlbumTracks(uri)) == Describe(AlbumTracks(id))
      && Describe(Artist(uri)) == Describe(Artist(id))
      && Describe(ArtistAlbums(uri)) == Describe(ArtistAlbums(id))
      && Describe(ArtistTopTracks(uri, country)) == Describe(ArtistTopTracks(id, country))
    ensures Describe(Album(id)).path == "albums/" + id
    ensures Describe(Artist(id)).path == "artists/" + id
  {
    var uri := "spotify:" + kind + ":" + id;
    SameIds(uri, kind, id);
    AlbumPaths(uri, id);
    ArtistPaths(uri, id, country);
    BarePaths(id);
  }

  lemma SameIds(uri: string, kind: string, id: string)
    requires ':' !in kind && ':' !in id && '/' !in id
    requires uri == "spotify:" + kind + ":" + id
    ensures ParseId("album", uri) == ParseId("album", id) == id
    ensures ParseId("artist", uri) == ParseId("artist", id) == id
  {
    SpotifyUri("album", kind, id);
    SpotifyUri("artist", kind, id);
    ParseIdBare("album", id);
    ParseIdBare("artist", id);
  }

  lemma BarePaths(id: string)
    requires ParseId("album", id) == id && ParseId("artist", id) == id
    ensures Describe(Album(id)).path == "albums/" + id
    ensures Describe(Artist(id)).path == "artists/" + id
  {
  }

  lemma AlbumPaths(a: string, b: string)
    requires ParseId("album", a) == ParseId("album", b)
    ensures Describe(Album(a)) == Describe(Album(b))
    ensures Describe(AlbumTracks(a)) == Describe(AlbumTracks(b))
  {
  }

  lemma ArtistPaths(a: string, b: string, country: string)
    requires ParseId("artist", a) == ParseId("artist", b)
    ensures Describe(Artist(a)) == Describe(Artist(b))
    ensures Describe(ArtistAlbums(a)) == Describe(ArtistAlbums(b))
    ensures Describe(ArtistTopTracks(a, country)) == Describe(ArtistTopTracks(b, country))
  {
    ArtistPath(a, b);
    ArtistAlbumsPath(a, b);
    ArtistTopTracksPath(a, b, country);
  }

  lemma ArtistPath(a: string, b: string)
    requires ParseId("artist", a) == ParseId("artist", b)
    ensures Describe(Artist(a)) == Describe(Artist(b))
  {
  }

  lemma ArtistAlbumsPath(a: string, b: string)
    requires ParseId("artist", a) == ParseId("artist", b)
    ensures Describe(ArtistAlbums(a)) == Describe(ArtistAlbums(b))
  {
  }

  lemma ArtistTopTracksPath(a: string, b: string, country: string)
    requires ParseId("artist", a) == ParseId("artist", b)
    ensures Describe(ArtistTopTracks(a, country)) == Describe(ArtistTopTracks(b, country))
  {
  }

  /** Track does not resolve its ID: a URI goes into the path as it is, while
      Tracks resolves the same URI to the bare ID. */
  lemma TrackKeepsRawId(id: string)
    requires ':' !in id && '/' !in id
    ensures Describe(Track("spotify:track:" + id)).path == "tracks/spotify:track:" + id
    ensures Describe(Track("spotify:track:" + id)) != Describe(Track(id))
    ensures Describe(Tracks(["spotify:track:" + id])).params == Some([Param("ids", id)])
  {
    var uri := "spotify:track:" + id;
    TrackPath(uri);
    TrackPath(id);
    assert |"tracks/" + uri| != |"tracks/" + id|;
    TracksUri(id);
  }

  lemma TrackPath(id: string)
    ensures Describe(Track(id)).path == "tracks/" + id
  {
  }

  lemma TracksUri(id: string)
    requires ':' !in id && '/' !in id
    ensures Describe(Tracks(["spotify:track:" + id])).params == Some([Param("ids", id)])
  {
    SpotifyUri("track", "track", id);
    assert "spotify:" + "track" + ":" + id == "spotify:track:" + id;
    TracksOfOne("spotify:track:" + id, id);
  }

  lemma TracksOfOne(uri: string, id: string)
    requires ParseId("track", uri) == id
    ensures Describe(Tracks([uri])).params == Some([Param("ids", id)])
  {
    SingleIdsParam([uri], "track");
  }

  /** A batch lookup sends the resolved IDs as one comma-separated `ids`
      parameter, never as repeated parameters. */
  lemma BatchSendsOneIdsParam(e: Endpoint)
    requires e.Albums? || e.Artists? || e.Tracks?
    ensures var idType := if e.Albums? then "album" else if e.Artists? then "artist" else "track";
      Describe(e).params == Some([Param("ids", BuildIdString(e.items, idType))])
  {
    match e
    case Albums(items) => SingleIdsParam(items, "album");
    case Artists(items) => SingleIdsParam(items, "artist");
    case Tracks(items) => SingleIdsParam(items, "track");
  }

  lemma SingleIdsParam(items: seq<string>, idType: string)
    ensures IdsParam(items, idType) == [Param("ids", BuildIdString(items, idType))]
  {
    assert [] + [Param("ids", BuildIdString(items, idType))] == [Param("ids", BuildIdString(items, idType))];
  }

  /** AddTracksToPlaylist puts the track URIs into the path joined by commas,
      without resolving them, and sends no parameters. */
  lemma AddTracksKeepsUris(userId: string, playlistId: string, uris: seq<string>)
    ensures Describe(AddTracksToPlaylist(userId, playlistId, uris)).params == None
    ensures Url(Describe(AddTracksToPlaylist(userId, playlistId, uris)).path, None)
      == APIUrl + "users/" + userId + "/playlists/" + playlistId + "/tracks?uris=" + Join(uris, ",")
  {
  }

  lemma EscapedIsAscii(s: string)
    ensures Ascii(QueryEscape(s))
  {
    var r := QueryEscape(s);
    assert forall i :: 0 <= i < |r| ==> Escaped(r[i]);
  }

  lemma DecimalIsAscii(n: int)
    ensures Ascii(Decimal(n))
  {
    var d := Decimal(n);
    if n < 0 {
      assert forall i :: 1 <= i < |d| ==> d[i] == NatToString(-n)[i - 1];
    }
  }

  lemma SearchParamsAscii(q: string, qType: string, limit: int, offset: int)
    requires Ascii(q)
    ensures AsciiValues(SearchParams(q, qType, limit, offset))
  {
    EscapedIsAscii(qType);
    DecimalIsAscii(limit);
    DecimalIsAscii(offset);
    assert Ascii("q") && Ascii("type") && Ascii("limit") && Ascii("offset");
    var a := Add([], "q", q);
    var b := Add(a, "type", QueryEscape(qType));
    var c := Add(b, "limit", Decimal(limit));
    AddAscii([], "q", q);
    AddAscii(a, "type", QueryEscape(qType));
    AddAscii(b, "limit", Decimal(limit));
    AddAscii(c, "offset", Decimal(offset));
  }

  /** What the server reads from a search URL: the query text, the type still
      carrying the escaping Search applied before Encode escaped it again, and
      the paging numbers. */
  lemma SearchQueryAsReceived(q: string, qType: string, limit: int, offset: int)
    requires Ascii(q)
    ensures var received := ParseQuery(RawQuery(Url("search", Describe(Search(q, qType, limit, offset)).params)));
      && Lookup(received, "q") == Some(q)
      && Lookup(received, "type") == Some(QueryEscape(qType))
      && Lookup(received, "limit").Some? && ParseDecimal(Lookup(received, "limit").value) == Some(limit)
      && Lookup(received, "offset").Some? && ParseDecimal(Lookup(received, "offset").value) == Some(offset)
  {
    SearchRequest(q, qType, limit, offset);
    SearchReceived(q, qType, limit, offset);
  }

  lemma SearchRequest(q: string, qType: string, limit: int, offset: int)
    ensures Describe(Search(q, qType, limit, offset)) == Request(Get, "search", Some(SearchParams(q, qType, limit, offset)))
  {
  }

  lemma SearchReceived(q: string, qType: string, limit: int, offset: int)
    requires Ascii(q)
    ensures var received := ParseQuery(RawQuery(Url("search", Some(SearchParams(q, qType, limit, offset)))));
      && Lookup(received, "q") == Some(q)
      && Lookup(received, "type") == Some(QueryEscape(qType))
      && Lookup(received, "limit").Some? && ParseDecimal(Lookup(received, "limit").value) == Some(limit)
      && Lookup(received, "offset").Some? && ParseDecimal(Lookup(received, "offset").value) == Some(offset)
  {
    var v := SearchParams(q, qType, limit, offset);
    SearchParamsAscii(q, qType, limit, offset);
    UrlQuery("search", Some(v));
    SortByKeyLookup(v, "q");
    SortByKeyLookup(v, "type");
    SortByKeyLookup(v, "limit");
    SortByKeyLookup(v, "offset");
    DecimalRoundTrip(limit);
    DecimalRoundTrip(offset);
  }
}

=== FILE: common.dfy ===
/** Shared helper types. */
module Common {

  /** An optional value: Go's nil map, a missing map key, or an absent side effect. */
  datatype Option<+T> = None | Some(value: T)

  /** The non-nil error values the client returns: a request that could not be
      built (http.NewRequest failed), and errors.New(resp.Status) for an HTTP
      status the caller does not accept. */
  datatype Error = RequestError | StatusError(status: string)
}

=== FILE: ids.dfy ===
/** Resource identifiers (gotify.go): a bare ID, a `spotify:type:id` URI or an
    `https://…/type/id` link all name the same resource, and the client reduces
    each to the bare ID before putting it in a path or a query parameter. */
module Ids {

  import opened Text

  /** parseId(idType, uri). The URI form is recognised first (exactly two `:`),
      then the link form (at least two `/`); anything else is taken as a bare ID.
      The expected type only decides whether a warning is logged. */
  function ParseId(idType: string, uri: string): (id: string)
    ensures Count(uri, ':') == 2 ==> id == AfterLast(uri, ':')
    ensures Count(uri, ':') != 2 && Count(uri, '/') >= 2 ==> id == AfterLast(uri, '/')
    ensures Count(uri, ':') != 2 && Count(uri, '/') < 2 ==> id == uri
  {
    var fields := Split(uri, ':');
    if |fields| == 3 then
      LastFieldIsAfterLast(uri, ':');
      fields[2]
    else
      var parts := Split(uri, '/');
      if |parts| >= 3 then
        LastFieldIsAfterLast(uri, '/');
        parts[|parts| - 1]
      else
        uri
  }

  /** When parseId logs its warning: the type segment it found differs from the
      expected one. */
  predicate TypeMismatch(idType: string, uri: string): (warn: bool)
    ensures warn ==> Count(uri, ':') == 2 || Count(uri, '/') >= 2
  {
    var fields := Split(uri, ':');
    if |fields| == 3 then fields[1] != idType
    else
      var parts := Split(uri, '/');
      |parts| >= 3 && idType != parts[|parts| - 2]
  }

  /** The expected type never changes the result, whether or not a warning fires. */
  lemma IdTypeIgnored(expected: string, other: string, uri: string)
    ensures ParseId(expected, uri) == ParseId(other, uri)
  {
  }

  /** A URI `scheme:kind:id` resolves to `id` whatever its kind and whatever type
      was expected; the warning fires exactly when the kind is not the expected one. */
  lemma ParseIdOfUri(idType: string, scheme: string, kind: string, id: string)
    requires ':' !in scheme && ':' !in kind && ':' !in id
    ensures ParseId(idType, scheme + ":" + kind + ":" + id) == id
    ensures TypeMismatch(idType, scheme + ":" + kind + ":" + id) <==> kind != idType
  {
    var uri := scheme + ":" + kind + ":" + id;
    var parts := [scheme, kind, id];
    assert Join(parts, ":") == uri by {
      assert Join(parts[2..], ":") == id;
    }
    SplitJoin(parts, ':');
  }

  /** A link `prefix/kind/id` (with a prefix that does not itself make the string
      a URI) resolves to `id`; the warning fires exactly when the kind differs. */
  lemma ParseIdOfLink(idType: string, prefix: string, kind: string, id: string)
    requires Count(prefix, ':') != 2
    requires ':' !in kind && ':' !in id && '/' !in kind && '/' !in id
    ensures ParseId(idType, prefix + "/" + kind + "/" + id) == id
    ensures TypeMismatch(idType, prefix + "/" + kind + "/" + id) <==> kind != idType
  {
    var link := prefix + "/" + kind + "/" + id;
    LinkColons(prefix, kind, id);
    LinkFields(prefix, kind, id);
    var parts := Split(link, '/');
    assert parts[|parts| - 1] == id && parts[|parts| - 2] == kind;
  }

  lemma LinkColons(prefix: string, kind: string, id: string)
    requires ':' !in kind && ':' !in id
    ensures Count(prefix + "/" + kind + "/" + id, ':') == Count(prefix, ':')
  {
    var tail := "/" + kind + "/" + id;
    assert prefix + "/" + kind + "/" + id == prefix + tail;
    CountConcat(prefix, tail, ':');
    assert ':' !in tail;
    CountAbsent(tail, ':');
  }

  lemma LinkFields(prefix: string, kind: string, id: string)
    requires '/' !in kind && '/' !in id
    ensures Split(prefix + "/" + kind + "/" + id, '/') == Split(prefix, '/') + [kind, id]
  {
    var tail := kind + "/" + id;
    assert prefix + "/" + kind + "/" + id == prefix + ['/'] + tail;
    SplitConcat(prefix, tail, '/');
    assert tail == kind + ['/'] + id;
    SplitConcat(kind, id, '/');
    SplitAbsent(kind, '/');
    SplitAbsent(id, '/');
  }

  /** The three spellings of one resource resolve to the same bare ID: the bare
      ID, the `spotify:kind:id` URI, and a `scheme://host/kind/id` link. */
  lemma ParseIdForms(idType: string, scheme: string, host: string, kind: string, id: string)
    requires ':' !in scheme && ':' !in host
    requires ':' !in kind && ':' !in id && '/' !in kind && '/' !in id
    ensures ParseId(idType, id) == id
    ensures ParseId(idType, "spotify:" + kind + ":" + id) == id
    ensures ParseId(idType, scheme + "://" + host + "/" + kind + "/" + id) == id
  {
    CountAbsent(id, ':');
    CountAbsent(id, '/');
    SpotifyUri(idType, kind, id);
    var prefix := scheme + "://" + host;
    PrefixColons(scheme, host);
    ParseIdOfLink(idType, prefix, kind, id);
    assert prefix + "/" + kind + "/" + id == scheme + "://" + host + "/" + kind + "/" + id;
  }

  /** A string with neither separator is a bare ID and resolves to itself. */
  lemma ParseIdBare(idType: string, id: string)
    requires ':' !in id && '/' !in id
    ensures ParseId(idType, id) == id
  {
    CountAbsent(id, ':');
    CountAbsent(id, '/');
  }

  lemma SpotifyUri(idType: string, kind: string, id: string)
    requires ':' !in kind && ':' !in id
    ensures ParseId(idType, "spotify:" + kind + ":" + id) == id
  {
    ParseIdOfUri(idType, "spotify", kind, id);
    assert "spotify" + ":" + kind + ":" + id == "spotify:" + kind + ":" + id;
  }

  lemma PrefixColons(scheme: string, host: string)
    requires ':' !in scheme && ':' !in host
    ensures Count(scheme + "://" + host, ':') == 1
  {
    var rest := "//" + host;
    assert scheme + "://" + host == scheme + ([':'] + rest);
    CountConcat(scheme, [':'] + rest, ':');
    CountConcat([':'], rest, ':');
    assert ':' !in rest;
    CountAbsent(scheme, ':');
    CountAbsent(rest, ':');
  }

  /** The URI form is tried before the link form: slashes inside the ID of a URI are kept. */
  lemma UriBeforeLink()
    ensures ParseId("track", "spotify:track:a/b/c") == "a/b/c"
  {
    ParseIdOfUri("track", "spotify", "track", "a/b/c");
    assert "spotify" + ":" + "track" + ":" + "a/b/c" == "spotify:track:a/b/c";
  }

  /** A link whose host carries a port has exactly two `:`, so it is taken for a
      URI: everything after the port's `:` comes back, not the last segment. */
  lemma LinkWithPort(idType: string, scheme: string, host: string, port: string, kind: string, id: string)
    requires ':' !in scheme && ':' !in host && ':' !in port && ':' !in kind && ':' !in id
    ensures ParseId(idType, scheme + "://" + host + ":" + port + "/" + kind + "/" + id) == port + "/" + kind + "/" + id
  {
    var rest := port + "/" + kind + "/" + id;
    ParseIdOfUri(idType, scheme, "//" + host, rest);
    assert scheme + ":" + ("//" + host) + ":" + rest == scheme + "://" + host + ":" + port + "/" + kind + "/" + id;
  }

  /** Every element of a list resolved on its own, in order. */
  function ResolveAll(items: seq<string>, idType: string): (ids: seq<string>)
    ensures |ids| == |items|
    ensures forall i :: 0 <= i < |items| ==> ids[i] == ParseId(idType, items[i])
  {
    if items == [] then [] else [ParseId(idType, items[0])] + ResolveAll(items[1..], idType)
  }

  /** buildIdString: the resolved IDs joined with commas. */
  function BuildIdString(items: seq<string>, idType: string): (s: string)
    ensures |items| == 0 ==> s == ""
    ensures |items| == 1 ==> s == ParseId(idType, items[0])
  {
    Join(ResolveAll(items, idType), ",")
  }

  /** Splitting the joined string on commas gives back each element's ID in
      input order, provided no ID holds a comma itself. */
  lemma BuildIdStringSplit(items: seq<string>, idType: string)
    requires |items| >= 1
    requires forall i :: 0 <= i < |items| ==> ',' !in ParseId(idType, items[i])
    ensures Split(BuildIdString(items, idType), ',') == ResolveAll(items, idType)
  {
    SplitJoin(ResolveAll(items, idType), ',');
  }

  /** One more element adds a comma and its ID at the end. */
  lemma BuildIdStringSnoc(items: seq<string>, item: string, idType: string)
    requires |items| >= 1
    ensures BuildIdString(items + [item], idType) == BuildIdString(items, idType) + "," + ParseId(idType, item)
  {
    assert ResolveAll(items + [item], idType) == ResolveAll(items, idType) + [ParseId(idType, item)];
    JoinSnoc(ResolveAll(items, idType), ParseId(idType, item), ",");
  }
}

=== FILE: oauth.dfy ===
/** The OAuth2 authorization-code flow of oauth2.go: the authorize URL, the
    code and refresh grants, the token cache. Time is an integer count of
    nanoseconds since the Unix epoch; the HTTP answer of the token endpoint, the
    cache file read and the JSON encoder's success are inputs. */
module OAuth {

  import opened Common
  import opened Query
  import opened Text

  const OauthAuthorizeURL := "https://accounts.spotify.com/authorize"
  const OauthTokenUrl := "https://accounts.spotify.com/api/token"

  const NanosPerSecond := 1_000_000_000

  /** Go's zero time.Time, 0001-01-01 00:00:00 UTC. */
  const ZeroTime := -62_135_596_800 * NanosPerSecond

  /** The permission bits saveTokenInfo passes to WriteFile (hexadecimal 777 as written). */
  const CacheFileMode := 0x777

  datatype SpotifyOauth = SpotifyOauth(
    clientId: string,
    clientSecret: string,
    redirectUri: string,
    state: string,
    scope: string,
    cachePath: string)

  /** A granted credential; `expiresAt` is computed locally from `ttl` (seconds). */
  datatype Token = Token(
    accessToken: string,
    tokenType: string,
    expiresAt: int,
    refreshToken: string,
    ttl: int)

  /** Token{}: every field at its zero value. */
  const EmptyToken := Token("", "", ZeroTime, "", 0)

  /** A form-encoded POST to the token endpoint with basic authentication. */
  datatype TokenRequest = TokenRequest(url: string, user: string, password: string, params: Values)

  /** One serialised token written to the cache file. */
  datatype CacheWrite = CacheWrite(path: string, token: Token, mode: int)

  /** What the token endpoint did with a request: the request could not be
      built, or it was answered with a status and a body that did or did not
      decode to a token. */
  datatype TokenExchange =
    | Unsendable
    | Answered(statusCode: int, status: string, payload: Option<Token>)

  /** What reading the cache file gave: an error, or its bytes decoded into a
      zero Token (`decoded` is false when json.Unmarshal failed part-way). */
  datatype CacheRead = Unreadable | Read(token: Token, decoded: bool)

  /** The (Token, error) a flow returns, with the requests it sent and the cache writes it made. */
  datatype Flow = Flow(token: Token, err: Option<Error>, requests: seq<TokenRequest>, writes: seq<CacheWrite>)

  /** The (error) saveTokenInfo returns, with the write it made. */
  datatype Saved = Saved(writes: seq<CacheWrite>, err: Option<Error>)

  /** Token.isExpired: time.Since(ExpiresAt) is not negative. */
  function IsExpired(t: Token, now: int): (expired: bool)
    ensures expired <==> t.expiresAt <= now
  {
    if !(now - t.expiresAt >= 0) then false else true
  }

  /** Once expired, a token stays expired. */
  lemma ExpiredStaysExpired(t: Token, now: int, later: int)
    requires IsExpired(t, now) && now <= later
    ensures IsExpired(t, later)
  {
  }

  /** The zero token counts as expired at any time from year 1 on. */
  lemma EmptyTokenExpired(now: int)
    requires now >= ZeroTime
    ensures IsExpired(EmptyToken, now)
  {
  }

  // ---------------------------------------------------------------------------
  // Authorize URL and grant parameters.

  /** The query of the authorize URL, in the order GetAuthorizeURL adds them. */
  function AuthorizeParams(o: SpotifyOauth): (v: Values)
    ensures Lookup(v, "client_id") == Some(o.clientId)
    ensures Lookup(v, "response_type") == Some("code")
    ensures Lookup(v, "redirect_uri") == Some(o.redirectUri)
    ensures Lookup(v, "scope") == (if o.scope != "" then Some(o.scope) else None)
    ensures Lookup(v, "state") == (if o.state != "" then Some(o.state) else None)
    ensures |v| == 3 + (if o.scope != "" then 1 else 0) + (if o.state != "" then 1 else 0)
  {
    var required := RequiredAuthorizeParams(o);
    var withScope := if o.scope != "" then Add(required, "scope", o.scope) else required;
    assert Lookup(withScope, "state") == None;
    if o.state != "" then Add(withScope, "state", o.state) else withScope
  }

  /** The three parameters GetAuthorizeURL always adds. */
  function RequiredAuthorizeParams(o: SpotifyOauth): (v: Values)
    ensures Lookup(v, "client_id") == Some(o.clientId)
    ensures Lookup(v, "response_type") == Some("code")
    ensures Lookup(v, "redirect_uri") == Some(o.redirectUri)
    ensures Lookup(v, "scope") == None && Lookup(v, "state") == None
    ensures |v| == 3
  {
    var a := Add([], "client_id", o.clientId);
    assert Lookup(a, "scope") == None && Lookup(a, "state") == None;
    var b := Add(a, "response_type", "code");
    assert Lookup(b, "scope") == None && Lookup(b, "state") == None;
    Add(b, "redirect_uri", o.redirectUri)
  }

  /** GetAuthorizeURL. Parsing the constant endpoint cannot fail, so only the success path exists. */
  function GetAuthorizeURL(o: SpotifyOauth): (url: string)
    ensures |OauthAuthorizeURL| < |url| && url[..|OauthAuthorizeURL| + 1] == OauthAuthorizeURL + "?"
    ensures RawQuery(url) == Encode(AuthorizeParams(o))
    ensures '#' !in url
  {
    var query := Encode(AuthorizeParams(o));
    AuthorizeEndpointPlain();
    QueryUrl(OauthAuthorizeURL, query);
    OauthAuthorizeURL + "?" + query
  }

  /** Reading the query back out of the authorize URL gives every parameter,
      keys in sorted order: `scope` and `state` appear exactly when configured. */
  lemma AuthorizeUrlQuery(o: SpotifyOauth)
    requires Ascii(o.clientId) && Ascii(o.redirectUri) && Ascii(o.scope) && Ascii(o.state)
    ensures ParseQuery(RawQuery(GetAuthorizeURL(o))) == SortByKey(AuthorizeParams(o))
    ensures Lookup(ParseQuery(RawQuery(GetAuthorizeURL(o))), "scope") == (if o.scope != "" then Some(o.scope) else None)
    ensures Lookup(ParseQuery(RawQuery(GetAuthorizeURL(o))), "state") == (if o.state != "" then Some(o.state) else None)
    ensures Lookup(ParseQuery(RawQuery(GetAuthorizeURL(o))), "client_id") == Some(o.clientId)
  {
    var v := AuthorizeParams(o);
    AuthorizeParamsAscii(o);
    AuthorizeEndpointPlain();
    RawQueryOf(OauthAuthorizeURL, Encode(v));
    ParseQueryEncode(v);
    SortByKeyLookup(v, "scope");
    SortByKeyLookup(v, "state");
    SortByKeyLookup(v, "client_id");
  }

  lemma AuthorizeParamsAscii(o: SpotifyOauth)
    requires Ascii(o.clientId) && Ascii(o.redirectUri) && Ascii(o.scope) && Ascii(o.state)
    ensures AsciiValues(AuthorizeParams(o))
  {
    assert Ascii("client_id") && Ascii("response_type") && Ascii("code") && Ascii("redirect_uri");
    assert Ascii("scope") && Ascii("state");
    var a := Add([], "client_id", o.clientId);
    var b := Add(a, "response_type", "code");
    var required := Add(b, "redirect_uri", o.redirectUri);
    AddAscii([], "client_id", o.clientId);
    AddAscii(a, "response_type", "code");
    AddAscii(b, "redirect_uri", o.redirectUri);
    assert required == RequiredAuthorizeParams(o);
    var withScope := if o.scope != "" then Add(required, "scope", o.scope) else required;
    if o.scope != "" {
      AddAscii(required, "scope", o.scope);
    }
    if o.state != "" {
      AddAscii(withScope, "state", o.state);
    }
  }

  lemma AuthorizeEndpointPlain()
    ensures '?' !in OauthAuthorizeURL && '#' !in OauthAuthorizeURL
  {
  }

  /** The authorization-code grant: exactly a redirect URI, the code and the grant type. */
  function AccessTokenParams(code: string, o: SpotifyOauth): (v: Values)
    ensures Keys(v) == {"redirect_uri", "code", "grant_type"} && |v| == 3
    ensures Lookup(v, "grant_type") == Some("authorization_code")
    ensures Lookup(v, "code") == Some(code)
    ensures Lookup(v, "redirect_uri") == Some(o.redirectUri)
  {
    var a := Add([], "redirect_uri", o.redirectUri);
    var b := Add(a, "code", code);
    AddKeys([], "redirect_uri", o.redirectUri);
    AddKeys(a, "code", code);
    AddKeys(b, "grant_type", "authorization_code");
    Add(b, "grant_type", "authorization_code")
  }

  /** The refresh grant: exactly the refresh token and the grant type. */
  function RefreshParams(refreshToken: string): (v: Values)
    ensures Keys(v) == {"refresh_token", "grant_type"} && |v| == 2
    ensures Lookup(v, "grant_type") == Some("refresh_token")
    ensures Lookup(v, "refresh_token") == Some(refreshToken)
  {
    var a := Add([], "refresh_token", refreshToken);
    AddKeys([], "refresh_token", refreshToken);
    AddKeys(a, "grant_type", "refresh_token");
    Add(a, "grant_type", "refresh_token")
  }

  // ---------------------------------------------------------------------------
  // The token endpoint and the cache.

  /** sendAccessTokenRequest. Inside the block that sends the request, `resp, err :=`
      declares a second `err`; the status and decode errors are stored in it, and
      the function returns the outer one. So an unaccepted status or an
      undecodable body gives the zero token and no error; only a request that
      cannot be built is reported. */
  function SendAccessTokenRequest(params: Values, o: SpotifyOauth, now: int, ex: TokenExchange): (r: Flow)
    ensures r.err.Some? <==> ex.Unsendable?
    ensures r.err.Some? ==> r.err == Some(RequestError) && r.requests == [] && r.token == EmptyToken
    ensures ex.Answered? ==> r.requests == [TokenRequest(OauthTokenUrl, o.clientId, o.clientSecret, params)]
    ensures ex.Answered? && ex.statusCode == 200 && ex.payload.Some? ==>
      r.token == ex.payload.value.(expiresAt := now + ex.payload.value.ttl * NanosPerSecond)
    ensures ex.Answered? && (ex.statusCode != 200 || ex.payload.None?) ==> r.token == EmptyToken
    ensures r.writes == []
  {
    match ex
    case Unsendable => Flow(EmptyToken, Some(RequestError), [], [])
    case Answered(code, _, payload) =>
      var sent := [TokenRequest(OauthTokenUrl, o.clientId, o.clientSecret, params)];
      if code == 200 then
        match payload
        case Some(t) => Flow(t.(expiresAt := now + t.ttl * NanosPerSecond), None, sent, [])
        case None => Flow(EmptyToken, None, sent, [])
      else
        Flow(EmptyToken, None, sent, [])
  }

  /** A token the endpoint grants is fresh for exactly its TTL: expired at a
      time `t` if and only if `t` is at least `now + ttl` seconds. */
  lemma GrantedTokenLifetime(params: Values, o: SpotifyOauth, now: int, ttl: int, payload: Token, t: int)
    requires payload.ttl == ttl
    ensures IsExpired(SendAccessTokenRequest(params, o, now, Answered(200, "200 OK", Some(payload))).token, t)
      <==> t >= now + ttl * NanosPerSecond
  {
  }

  /** saveTokenInfo. The JSON encoding's `err` is declared inside the block, so the
      function returns nil on every path: nothing is written without a cache
      path, and a failed write is not reported. */
  function SaveTokenInfo(t: Token, o: SpotifyOauth, marshalled: bool): (r: Saved)
    ensures r.err == None
    ensures |r.writes| <= 1
    ensures r.writes != [] <==> o.cachePath != "" && marshalled
    ensures forall w :: w in r.writes ==> w == CacheWrite(o.cachePath, t, CacheFileMode)
  {
    if o.cachePath != "" then
      if marshalled then Saved([CacheWrite(o.cachePath, t, CacheFileMode)], None)
      else Saved([], None)
    else
      Saved([], None)
  }

  /** GetAccessToken: the code grant, then the cache write. */
  function GetAccessToken(code: string, o: SpotifyOauth, now: int, ex: TokenExchange, marshalled: bool): (r: Flow)
    ensures r.err.Some? <==> ex.Unsendable?
    ensures ex.Answered? ==> r.requests == [TokenRequest(OauthTokenUrl, o.clientId, o.clientSecret, AccessTokenParams(code, o))]
    ensures ex.Answered? ==> r.token == SendAccessTokenRequest(AccessTokenParams(code, o), o, now, ex).token
    ensures ex.Answered? ==> r.writes == SaveTokenInfo(r.token, o, marshalled).writes
    ensures ex.Unsendable? ==> r.requests == [] && r.writes == [] && r.token == EmptyToken
  {
    var sent := SendAccessTokenRequest(AccessTokenParams(code, o), o, now, ex);
    if sent.err == None then
      var saved := SaveTokenInfo(sent.token, o, marshalled);
      if saved.err == None then Flow(sent.token, None, sent.requests, saved.writes)
      else Flow(EmptyToken, saved.err, sent.requests, saved.writes)
    else
      Flow(EmptyToken, sent.err, sent.requests, [])
  }

  /** RefreshAccessToken: the refresh grant; a response without a refresh token
      keeps the caller's; then the cache write. */
  function RefreshAccessToken(refreshToken: string, o: SpotifyOauth, now: int, ex: TokenExchange, marshalled: bool): (r: Flow)
    ensures r.err.Some? <==> ex.Unsendable?
    ensures ex.Answered? ==> r.requests == [TokenRequest(OauthTokenUrl, o.clientId, o.clientSecret, RefreshParams(refreshToken))]
    ensures ex.Answered? ==> r.writes == SaveTokenInfo(r.token, o, marshalled).writes
    ensures ex.Unsendable? ==> r.requests == [] && r.writes == [] && r.token == EmptyToken
  {
    var sent := SendAccessTokenRequest(RefreshParams(refreshToken), o, now, ex);
    if sent.err == None then
      var token := if sent.token.refreshToken == "" then sent.token.(refreshToken := refreshToken) else sent.token;
      var saved := SaveTokenInfo(token, o, marshalled);
      if saved.err == None then Flow(token, None, sent.requests, saved.writes)
      else Flow(EmptyToken, saved.err, sent.requests, saved.writes)
    else
      Flow(EmptyToken, sent.err, sent.requests, [])
  }

  /** The refreshed token carries the new refresh token when the response has
      one and the caller's otherwise; every other field is the response's. */
  lemma RefreshKeepsRefreshToken(refreshToken: string, o: SpotifyOauth, now: int, payload: Token, marshalled: bool)
    ensures var r := RefreshAccessToken(refreshToken, o, now, Answered(200, "200 OK", Some(payload)), marshalled);
      && r.err == None
      && r.token.refreshToken == (if payload.refreshToken == "" then refreshToken else payload.refreshToken)
      && r.token.accessToken == payload.accessToken
      && r.token.tokenType == payload.tokenType
      && r.token.ttl == payload.ttl
      && r.token.expiresAt == now + payload.ttl * NanosPerSecond
  {
  }

  /** A refused refresh, or a 200 answer whose body does not decode, is not
      reported: the result is the zero token carrying the caller's refresh token,
      and it is written to the cache. */
  lemma RefusedRefreshIsNotAnError(refreshToken: string, o: SpotifyOauth, now: int, code: int, status: string,
                                   payload: Option<Token>, marshalled: bool)
    requires code != 200 || payload.None?
    ensures var r := RefreshAccessToken(refreshToken, o, now, Answered(code, status, payload), marshalled);
      && r.err == None
      && r.token == EmptyToken.(refreshToken := refreshToken)
      && (o.cachePath != "" && marshalled ==> r.writes == [CacheWrite(o.cachePath, r.token, CacheFileMode)])
  {
  }

  /** GetCachedToken. The cache-read `err` is declared inside the block, so the
      function never reports an error: a missing cache path, an unreadable file
      and an undecodable fresh token all give the zero token. An expired token
      (including one whose decode failed) is refreshed with its own refresh token.
      The clock is read twice: `now` for the expiry check and `granted` when the
      refreshed token's expiry is stamped. */
  function GetCachedToken(o: SpotifyOauth, now: int, granted: int, cache: CacheRead, ex: TokenExchange, marshalled: bool): (r: Flow)
    ensures r.err == None
    ensures |r.requests| <= 1
  {
    if o.cachePath != "" then
      match cache
      case Unreadable => Flow(EmptyToken, None, [], [])
      case Read(t, decoded) =>
        if IsExpired(t, now) then
          var refreshed := RefreshAccessToken(t.refreshToken, o, granted, ex, marshalled);
          if refreshed.err == None then refreshed
          else Flow(EmptyToken, None, refreshed.requests, refreshed.writes)
        else if decoded then Flow(t, None, [], [])
        else Flow(EmptyToken, None, [], [])
    else
      Flow(EmptyToken, None, [], [])
  }

  /** Where the cache stands: no cached token, a fresh one, or an expired one. */
  datatype CacheState = Absent | Fresh | Expired

  function Classify(o: SpotifyOauth, now: int, cache: CacheRead): CacheState
  {
    if o.cachePath == "" || cache.Unreadable? then Absent
    else if IsExpired(cache.token, now) then Expired
    else Fresh
  }

  /** No cache: the zero token, no request, no write. */
  lemma CachedTokenAbsent(o: SpotifyOauth, now: int, granted: int, cache: CacheRead, ex: TokenExchange, marshalled: bool)
    requires Classify(o, now, cache) == Absent
    ensures GetCachedToken(o, now, granted, cache, ex, marshalled) == Flow(EmptyToken, None, [], [])
  {
  }

  /** A fresh cached token is returned as it was read (or the zero token when
      its decode failed), with no request and no write. */
  lemma CachedTokenFresh(o: SpotifyOauth, now: int, granted: int, cache: CacheRead, ex: TokenExchange, marshalled: bool)
    requires Classify(o, now, cache) == Fresh
    ensures var r := GetCachedToken(o, now, granted, cache, ex, marshalled);
      && r.requests == [] && r.writes == []
      && r.token == (if cache.decoded then cache.token else EmptyToken)
  {
  }

  /** An expired cached token triggers exactly one refresh, with its own
      refresh token; an answered refresh is returned and written to the cache.
      When the refresh request cannot be built, its error is lost and the zero
      token comes back with no error, no request and no write. */
  lemma CachedTokenExpired(o: SpotifyOauth, now: int, granted: int, cache: CacheRead, ex: TokenExchange, marshalled: bool)
    requires Classify(o, now, cache) == Expired
    ensures ex.Answered? ==> var r := GetCachedToken(o, now, granted, cache, ex, marshalled);
      && r.requests == [TokenRequest(OauthTokenUrl, o.clientId, o.clientSecret, RefreshParams(cache.token.refreshToken))]
      && r == RefreshAccessToken(cache.token.refreshToken, o, granted, ex, marshalled)
      && (marshalled ==> r.writes == [CacheWrite(o.cachePath, r.token, CacheFileMode)])
    ensures ex.Unsendable? ==> GetCachedToken(o, now, granted, cache, ex, marshalled) == Flow(EmptyToken, None, [], [])
  {
  }

  // ---------------------------------------------------------------------------
  // The redirect back to the application.

  /** Whether the redirect's query carries a `code` parameter. */
  predicate HasCode(response: string)
  {
    Lookup(ParseQuery(RawQuery(response)), "code").Some?
  }

  /** ParseResponseCode: the first `code` value of the redirect's query. The
      source indexes it without checking that it is there, so a caller must pass
      a redirect that carries one. */
  function ParseResponseCode(response: string): (code: string)
    requires HasCode(response)
    ensures FirstPieceFor(Split(RawQuery(response), '&'), "code", code)
  {
    var pieces := Split(RawQuery(response), '&');
    assert ParseQuery(RawQuery(response)) == ParsePieces(pieces);
    LookupParsePieces(pieces, "code");
    Lookup(ParsePieces(pieces), "code").value
  }

  /** A redirect built as `uri?` plus an encoded query yields the first `code`
      value that was put into the query. */
  lemma ResponseCodeRoundTrip(uri: string, v: Values, code: string)
    requires '?' !in uri && '#' !in uri
    requires AsciiValues(v)
    requires Lookup(v, "code") == Some(code)
    ensures HasCode(uri + "?" + Encode(v))
    ensures ParseResponseCode(uri + "?" + Encode(v)) == code
  {
    RawQueryOf(uri, Encode(v));
    ParseQueryEncode(v);
    SortByKeyLookup(v, "code");
  }

  /** A redirect whose query has no `code` (the user declined) is outside what
      ParseResponseCode accepts. */
  lemma RedirectWithoutCode(uri: string, v: Values)
    requires '?' !in uri && '#' !in uri
    requires AsciiValues(v)
    requires Lookup(v, "code") == None
    ensures !HasCode(uri + "?" + Encode(v))
  {
    RawQueryOf(uri, Encode(v));
    ParseQueryEncode(v);
    SortByKeyLookup(v, "code");
  }
}

=== FILE: query.dfy ===
/** Query strings as the client builds and reads them: net/url's Values with
    QueryEscape/QueryUnescape, Values.Encode (keys in sorted order, the values of
    one key in the order they were added) and ParseQuery, and the raw query of a
    URL as url.Parse separates it. */
module Query {

  import opened Common
  import opened Text

  /** One `key=value` entry of a url.Values, in the order it was added. */
  datatype Param = Param(key: string, value: string)

  /** url.Values as the sequence of its Add calls; Go's nil Values is `None` at the use site. */
  type Values = seq<Param>

  /** The value of the first entry with key `k`, as `q[k][0]` reads it. */
  function Lookup(v: Values, k: string): Option<string>
  {
    if v == [] then None
    else if v[0].key == k then Some(v[0].value)
    else Lookup(v[1..], k)
  }

  /** Values.Add: the value goes after the key's earlier values, and every other
      key is left as it was. */
  function Add(v: Values, key: string, value: string): (r: Values)
    ensures Lookup(r, key) == (if Lookup(v, key).Some? then Lookup(v, key) else Some(value))
    ensures forall k :: k != key ==> Lookup(r, k) == Lookup(v, k)
    ensures forall k :: WithKey(r, k) == WithKey(v, k) + (if k == key then [Param(key, value)] else [])
    ensures |r| == |v| + 1
  {
    LookupSnoc(v, Param(key, value));
    SnocWithKeyAll(v, Param(key, value));
    v + [Param(key, value)]
  }

  /** Add adds its key to the keys present, and no other. */
  lemma AddKeys(v: Values, key: string, value: string)
    ensures Keys(Add(v, key, value)) == Keys(v) + {key}
  {
    var r := Add(v, key, value);
    assert r[|v|].key == key;
    assert forall i :: 0 <= i < |v| ==> r[i] == v[i];
  }

  /** Adding an ASCII entry to ASCII values keeps them ASCII. */
  lemma AddAscii(v: Values, key: string, value: string)
    requires AsciiValues(v) && Ascii(key) && Ascii(value)
    ensures AsciiValues(Add(v, key, value))
  {
    var r := Add(v, key, value);
    assert forall i :: 0 <= i < |v| ==> r[i] == v[i];
  }

  lemma {:induction false} LookupSnoc(v: Values, p: Param)
    ensures forall k :: Lookup(v + [p], k) == (if Lookup(v, k).Some? then Lookup(v, k) else if p.key == k then Some(p.value) else None)
  {
    if v != [] {
      assert (v + [p])[1..] == v[1..] + [p];
      LookupSnoc(v[1..], p);
    }
  }

  /** The keys present. */
  function Keys(v: Values): set<string>
  {
    set i | 0 <= i < |v| :: v[i].key
  }

  /** The entries with key `k`, in order. */
  function WithKey(v: Values, k: string): Values
  {
    if v == [] then []
    else (if v[0].key == k then [v[0]] else []) + WithKey(v[1..], k)
  }

  lemma {:induction false} WithKeyConcat(a: Values, b: Values, k: string)
    ensures WithKey(a + b, k) == WithKey(a, k) + WithKey(b, k)
  {
    if a != [] {
      assert (a + b)[1..] == a[1..] + b;
      WithKeyConcat(a[1..], b, k);
    } else {
      assert a + b == b;
    }
  }

  /** Lookup sees only the entries of its own key, and takes the first of them. */
  lemma {:induction false} LookupWithKey(v: Values, k: string)
    ensures Lookup(v, k) == (if WithKey(v, k) == [] then None else Some(WithKey(v, k)[0].value))
  {
    if v != [] {
      LookupWithKey(v[1..], k);
    }
  }

  // ---------------------------------------------------------------------------
  // Percent-encoding in query-component mode.

  /** Characters QueryEscape leaves as they are. */
  predicate Unreserved(c: char)
  {
    ('A' <= c <= 'Z') || ('a' <= c <= 'z') || ('0' <= c <= '9') ||
    c == '-' || c == '_' || c == '.' || c == '~'
  }

  /** Characters that can appear in the output of QueryEscape. */
  predicate Escaped(c: char)
  {
    Unreserved(c) || c == '+' || c == '%'
  }

  predicate Ascii(s: string)
  {
    forall i :: 0 <= i < |s| ==> s[i] as int < 128
  }

  predicate AsciiValues(v: Values)
  {
    forall i :: 0 <= i < |v| ==> Ascii(v[i].key) && Ascii(v[i].value)
  }

  /** Upper-case hexadecimal digit, as Go's escape writes it. */
  function HexDigit(d: int): (c: char)
    requires 0 <= d < 16
    ensures Unreserved(c)
  {
    if d < 10 then (48 + d) as char else (55 + d) as char
  }

  /** The value of a hexadecimal digit of either case. */
  function HexValue(c: char): Option<int>
  {
    if '0' <= c <= '9' then Some(c as int - 48)
    else if 'a' <= c <= 'f' then Some(c as int - 87)
    else if 'A' <= c <= 'F' then Some(c as int - 55)
    else None
  }

  /** The UTF-8 bytes of a character. */
  function Utf8(c: char): (bytes: seq<int>)
    ensures 1 <= |bytes| <= 4
    ensures forall i :: 0 <= i < |bytes| ==> 0 <= bytes[i] < 256
    ensures c as int < 128 ==> bytes == [c as int]
  {
    var n := c as int;
    if n < 0x80 then [n]
    else if n < 0x800 then [0xC0 + n / 64, 0x80 + n % 64]
    else if n < 0x1_0000 then [0xE0 + n / 4096, 0x80 + (n / 64) % 64, 0x80 + n % 64]
    else [0xF0 + n / 0x4_0000, 0x80 + (n / 4096) % 64, 0x80 + (n / 64) % 64, 0x80 + n % 64]
  }

  function PercentBytes(bytes: seq<int>): (s: string)
    requires forall i :: 0 <= i < |bytes| ==> 0 <= bytes[i] < 256
    ensures forall i :: 0 <= i < |s| ==> Escaped(s[i])
  {
    if bytes == [] then []
    else ['%', HexDigit(bytes[0] / 16), HexDigit(bytes[0] % 16)] + PercentBytes(bytes[1..])
  }

  function EscapeChar(c: char): string
  {
    if Unreserved(c) then [c]
    else if c == ' ' then "+"
    else PercentBytes(Utf8(c))
  }

  /** url.QueryEscape: unreserved characters stay, a space becomes `+`, every
      other character becomes `%XX` per UTF-8 byte. The result never contains a
      query delimiter, and a string of unreserved characters is left alone. */
  function QueryEscape(s: string): (r: string)
    ensures forall i :: 0 <= i < |r| ==> Escaped(r[i])
    ensures (forall i :: 0 <= i < |s| ==> Unreserved(s[i])) ==> r == s
  {
    if s == [] then []
    else
      assert forall i :: 1 <= i < |s| ==> s[1..][i - 1] == s[i];
      EscapeChar(s[0]) + QueryEscape(s[1..])
  }

  function Prepend(c: char, rest: Option<string>): Option<string>
  {
    match rest
    case Some(t) => Some([c] + t)
    case None => None
  }

  /** A `%` at position `i` that is not followed by two hexadecimal digits. Since
      `%` is not itself a hexadecimal digit, every `%` starts an escape. */
  predicate MalformedAt(s: string, i: int)
  {
    0 <= i < |s| && s[i] == '%' && (|s| <= i + 2 || HexValue(s[i + 1]).None? || HexValue(s[i + 2]).None?)
  }

  /** url.QueryUnescape: `+` is a space and `%XX` is the character with that
      code; a malformed escape anywhere is an error (`None`). Escapes of bytes 80
      and above are treated as malformed here (see README). */
  function QueryUnescape(s: string): (r: Option<string>)
    ensures '%' !in s && '+' !in s ==> r == Some(s)
    ensures r.Some? ==> |r.value| <= |s|
    ensures forall i :: MalformedAt(s, i) ==> r.None?
  {
    if s == [] then Some([])
    else if s[0] == '%' then
      if |s| < 3 then None
      else
        match (HexValue(s[1]), HexValue(s[2]))
        case (Some(hi), Some(lo)) =>
          assert forall i :: MalformedAt(s, i) ==> MalformedAt(s[3..], i - 3);
          if hi * 16 + lo < 128 then Prepend((hi * 16 + lo) as char, QueryUnescape(s[3..])) else None
        case _ => None
    else if s[0] == '+' then
      assert forall i :: MalformedAt(s, i) ==> MalformedAt(s[1..], i - 1);
      Prepend(' ', QueryUnescape(s[1..]))
    else
      assert s == [s[0]] + s[1..];
      assert forall i :: MalformedAt(s, i) ==> MalformedAt(s[1..], i - 1);
      Prepend(s[0], QueryUnescape(s[1..]))
  }

  lemma HexRoundTrip(d: int)
    requires 0 <= d < 16
    ensures HexValue(HexDigit(d)) == Some(d)
  {
  }

  lemma {:induction false} UnescapeAfterEscapeChar(c: char, rest: string)
    requires c as int < 128
    ensures QueryUnescape(EscapeChar(c) + rest) == Prepend(c, QueryUnescape(rest))
  {
    if !Unreserved(c) && c != ' ' {
      var n := c as int;
      HexRoundTrip(n / 16);
      HexRoundTrip(n % 16);
      assert Utf8(c) == [n];
      assert PercentBytes([n]) == ['%', HexDigit(n / 16), HexDigit(n % 16)] + PercentBytes([]);
      var s := EscapeChar(c) + rest;
      assert s == ['%', HexDigit(n / 16), HexDigit(n % 16)] + rest;
      assert s[3..] == rest;
    } else {
      assert (EscapeChar(c) + rest)[1..] == rest;
    }
  }

  /** Unescaping what QueryEscape produced gives back an ASCII string. */
  lemma {:induction false} UnescapeEscape(s: string)
    requires Ascii(s)
    ensures QueryUnescape(QueryEscape(s)) == Some(s)
  {
    if s != [] {
      assert Ascii(s[1..]) by {
        assert forall i :: 0 <= i < |s[1..]| ==> s[1..][i] == s[i + 1];
      }
      UnescapeEscape(s[1..]);
      UnescapeAfterEscapeChar(s[0], QueryEscape(s[1..]));
      assert s == [s[0]] + s[1..];
    }
  }

  // ---------------------------------------------------------------------------
  // Values.Encode: sorted keys, stable within a key.

  /** Entries in non-decreasing key order. */
  ghost predicate Sorted(v: Values)
  {
    forall i, j :: 0 <= i < j < |v| ==> Le(v[i].key, v[j].key)
  }

  /** Places `p` after every entry whose key is not greater than its own. */
  function Insert(p: Param, s: Values): (r: Values)
    ensures multiset(r) == multiset(s) + multiset{p}
  {
    if s == [] then [p]
    else if !Le(s[0].key, p.key) then [p] + s
    else
      assert s == [s[0]] + s[1..];
      [s[0]] + Insert(p, s[1..])
  }

  lemma {:induction false} InsertSorted(p: Param, s: Values)
    requires Sorted(s)
    ensures Sorted(Insert(p, s))
  {
    if s == [] {
    } else if !Le(s[0].key, p.key) {
      LeTotal(s[0].key, p.key);
      forall j | 0 <= j < |s|
        ensures Le(p.key, s[j].key)
      {
        if j > 0 {
          LeTransitive(p.key, s[0].key, s[j].key);
        }
      }
    } else {
      SortedTail(s);
      InsertSorted(p, s[1..]);
      var r := Insert(p, s);
      var tail := Insert(p, s[1..]);
      forall j | 0 <= j < |tail|
        ensures Le(s[0].key, tail[j].key)
      {
        assert tail[j] in multiset(tail);
        if tail[j] != p {
          assert tail[j] in multiset(s[1..]);
          var m :| 0 <= m < |s[1..]| && s[1..][m] == tail[j];
          assert s[m + 1] == tail[j];
        }
      }
    }
  }

  /** Inserting an entry appends it to the entries of its key and leaves every other key's entries alone. */
  lemma {:induction false} InsertWithKey(p: Param, s: Values, k: string)
    requires Sorted(s)
    ensures WithKey(Insert(p, s), k) == WithKey(s, k) + (if p.key == k then [p] else [])
  {
    if s == [] {
      assert WithKey([p], k) == (if p.key == k then [p] else []) + WithKey([], k);
    } else if !Le(s[0].key, p.key) {
      InsertInFront(p, s, k);
    } else {
      SortedTail(s);
      InsertWithKey(p, s[1..], k);
      InsertBehind(p, s, k);
    }
  }

  /** `p` goes before a sorted sequence whose first key is above its own. */
  lemma InsertInFront(p: Param, s: Values, k: string)
    requires Sorted(s) && s != [] && !Le(s[0].key, p.key)
    ensures WithKey(Insert(p, s), k) == WithKey(s, k) + (if p.key == k then [p] else [])
  {
    assert Insert(p, s) == [p] + s;
    WithKeyCons(p, s, k);
    if p.key == k {
      LeTotal(s[0].key, p.key);
      NoneWithKey(s, k);
    }
  }

  /** `p` goes behind the first entry, into the tail. */
  lemma InsertBehind(p: Param, s: Values, k: string)
    requires s != [] && Le(s[0].key, p.key)
    requires WithKey(Insert(p, s[1..]), k) == WithKey(s[1..], k) + (if p.key == k then [p] else [])
    ensures WithKey(Insert(p, s), k) == WithKey(s, k) + (if p.key == k then [p] else [])
  {
    InsertStep(p, s);
    ConsWithKey(s, k);
    WithKeyCons(s[0], Insert(p, s[1..]), k);
    Associative(if s[0].key == k then [s[0]] else [], WithKey(s[1..], k), if p.key == k then [p] else []);
  }

  lemma Associative(a: Values, b: Values, c: Values)
    ensures a + (b + c) == (a + b) + c
  {
  }

  lemma InsertStep(p: Param, s: Values)
    requires s != [] && Le(s[0].key, p.key)
    ensures Insert(p, s) == [s[0]] + Insert(p, s[1..])
  {
  }

  lemma ConsWithKey(s: Values, k: string)
    requires s != []
    ensures WithKey(s, k) == (if s[0].key == k then [s[0]] else []) + WithKey(s[1..], k)
  {
  }

  lemma WithKeyCons(p: Param, s: Values, k: string)
    ensures WithKey([p] + s, k) == (if p.key == k then [p] else []) + WithKey(s, k)
  {
    assert ([p] + s)[1..] == s;
  }

  lemma SortedTail(s: Values)
    requires Sorted(s) && s != []
    ensures Sorted(s[1..])
  {
    forall i, j | 0 <= i < j < |s[1..]|
      ensures Le(s[1..][i].key, s[1..][j].key)
    {
      assert s[1..][i] == s[i + 1] && s[1..][j] == s[j + 1];
    }
  }

  /** No entry of a sorted sequence whose first key is above `k` has key `k`. */
  lemma {:induction false} NoneWithKey(s: Values, k: string)
    requires Sorted(s) && s != [] && Le(k, s[0].key) && k != s[0].key
    ensures WithKey(s, k) == []
  {
    if |s| > 1 {
      assert Le(s[0].key, s[1].key);
      LeTransitive(k, s[0].key, s[1].key);
      if k == s[1].key {
        LeAntisymmetric(k, s[0].key);
      }
      SortedTail(s);
      NoneWithKey(s[1..], k);
      WithKeyCons(s[0], s[1..], k);
      assert [s[0]] + s[1..] == s;
    }
  }

  /** Insertion sort by key, inserting entries in the order they were added.
      The result is ordered by key and holds exactly the input entries. */
  function SortByKey(v: Values): (r: Values)
    ensures Sorted(r)
    ensures multiset(r) == multiset(v)
  {
    if v == [] then []
    else
      var rest := SortByKey(v[..|v| - 1]);
      InsertSorted(v[|v| - 1], rest);
      assert v == v[..|v| - 1] + [v[|v| - 1]];
      Insert(v[|v| - 1], rest)
  }

  /** Sorting keeps the entries of each key in the order they were added. */
  lemma {:induction false} SortByKeyStable(v: Values, k: string)
    ensures WithKey(SortByKey(v), k) == WithKey(v, k)
  {
    if v != [] {
      var init := v[..|v| - 1];
      var last := v[|v| - 1];
      SortByKeyStable(init, k);
      SortByKeyLast(v);
      InsertWithKey(last, SortByKey(init), k);
      SnocWithKey(init, last, k);
    }
  }

  lemma SortByKeyLast(v: Values)
    requires v != []
    ensures v == v[..|v| - 1] + [v[|v| - 1]]
    ensures SortByKey(v) == Insert(v[|v| - 1], SortByKey(v[..|v| - 1]))
    ensures Sorted(SortByKey(v[..|v| - 1]))
  {
    LastSplit(v);
  }

  lemma LastSplit(v: Values)
    requires v != []
    ensures v == v[..|v| - 1] + [v[|v| - 1]]
  {
    var w := v[..|v| - 1] + [v[|v| - 1]];
    assert |w| == |v|;
    assert forall i :: 0 <= i < |v| ==> w[i] == v[i];
  }

  lemma SnocWithKeyAll(init: Values, last: Param)
    ensures forall k :: WithKey(init + [last], k) == WithKey(init, k) + (if k == last.key then [last] else [])
  {
    forall k {
      SnocWithKey(init, last, k);
    }
  }

  lemma SnocWithKey(init: Values, last: Param, k: string)
    ensures WithKey(init + [last], k) == WithKey(init, k) + (if last.key == k then [last] else [])
  {
    WithKeyConcat(init, [last], k);
    WithKeyCons(last, [], k);
    assert [last] + [] == [last];
  }

  /** A sorted parameter list answers every lookup as the original does. */
  lemma SortByKeyLookup(v: Values, k: string)
    ensures Lookup(SortByKey(v), k) == Lookup(v, k)
  {
    SortByKeyStable(v, k);
    LookupWithKey(v, k);
    LookupWithKey(SortByKey(v), k);
  }

  /** `key=value` with both halves escaped. */
  function Piece(p: Param): string
  {
    QueryEscape(p.key) + "=" + QueryEscape(p.value)
  }

  function Pieces(v: Values): (pieces: seq<string>)
    ensures |pieces| == |v|
    ensures forall i :: 0 <= i < |v| ==> pieces[i] == Piece(v[i])
  {
    if v == [] then [] else [Piece(v[0])] + Pieces(v[1..])
  }

  /** Values.Encode: the `key=value` pieces of the key-sorted entries, joined by
      `&`. Splitting at `&` recovers the pieces, since no escaped piece holds one,
      and the result never holds a URL delimiter. */
  function Encode(v: Values): (r: string)
    ensures v == [] ==> r == ""
    ensures v != [] ==> Split(r, '&') == Pieces(SortByKey(v))
    ensures '?' !in r && '#' !in r
  {
    var sorted := SortByKey(v);
    var pieces := Pieces(sorted);
    assert |sorted| == |multiset(sorted)| == |multiset(v)| == |v|;
    PiecesEscaped(sorted);
    JoinParts(pieces, "&", '?');
    JoinParts(pieces, "&", '#');
    if pieces != [] then
      SplitJoin(pieces, '&');
      Join(pieces, "&")
    else
      Join(pieces, "&")
  }

  // ---------------------------------------------------------------------------
  // ParseQuery.

  /** One `&`-separated piece: skipped when empty, when it holds a `;`, or when
      either half fails to unescape; otherwise one entry. */
  function ParsePiece(piece: string): (r: Values)
    ensures |r| <= 1
    ensures r != [] ==> piece != [] && ';' !in piece
  {
    if piece == [] || ';' in piece then []
    else
      var (k, val, _) := Cut(piece, '=');
      match (QueryUnescape(k), QueryUnescape(val))
      case (Some(k'), Some(v')) => [Param(k', v')]
      case _ => []
  }

  /** Each piece gives at most one entry, and every entry is what one piece parses to. */
  function ParsePieces(pieces: seq<string>): (r: Values)
    ensures |r| <= |pieces|
    ensures forall i :: 0 <= i < |r| ==> exists j :: 0 <= j < |pieces| && ParsePiece(pieces[j]) == [r[i]]
  {
    if pieces == [] then []
    else
      var head := ParsePiece(pieces[0]);
      var rest := ParsePieces(pieces[1..]);
      assert forall j :: 0 <= j < |pieces[1..]| ==> pieces[1..][j] == pieces[j + 1];
      assert forall i :: 0 <= i < |rest| ==> (head + rest)[|head| + i] == rest[i];
      head + rest
  }

  /** url.ParseQuery, with the entries in the order they appear: at most one
      entry per `&`-separated piece, and a query without `&` is a single piece. */
  function ParseQuery(query: string): (r: Values)
    ensures |r| <= Count(query, '&') + 1
    ensures '&' !in query ==> r == ParsePiece(query)
  {
    var pieces := Split(query, '&');
    if '&' !in query then
      SplitAbsent(query, '&');
      assert ParsePieces(pieces) == ParsePiece(query) + ParsePieces([]);
      ParsePieces(pieces)
    else
      ParsePieces(pieces)
  }

  lemma {:induction false} LookupConcat(a: Values, b: Values, k: string)
    ensures Lookup(a + b, k) == if Lookup(a, k).Some? then Lookup(a, k) else Lookup(b, k)
  {
    if a == [] {
      assert a + b == b;
    } else {
      assert (a + b)[1..] == a[1..] + b;
      LookupConcat(a[1..], b, k);
    }
  }

  /** Piece `i` parses to the entry `k=value`, and no piece before it yields an
      entry for `k`: `value` is the first value of `k` in the query. */
  predicate FirstPieceFor(pieces: seq<string>, k: string, value: string)
  {
    exists i ::
      (0 <= i < |pieces|
       && ParsePiece(pieces[i]) == [Param(k, value)]
       && (forall j :: 0 <= j < i ==> Lookup(ParsePiece(pieces[j]), k) == None))
  }

  /** The first entry for `k` of a parsed query comes from one piece, and no
      piece before it yields an entry for `k`. */
  lemma {:induction false} LookupParsePieces(pieces: seq<string>, k: string)
    requires Lookup(ParsePieces(pieces), k).Some?
    ensures FirstPieceFor(pieces, k, Lookup(ParsePieces(pieces), k).value)
  {
    assert pieces != [];
    var head := ParsePiece(pieces[0]);
    var rest := ParsePieces(pieces[1..]);
    ParsePiecesStep(pieces);
    LookupConcat(head, rest, k);
    if Lookup(head, k).Some? {
      SingleEntry(head, k);
      FirstPieceHead(pieces, k, Lookup(head, k).value);
    } else {
      LookupParsePieces(pieces[1..], k);
      FirstPieceShift(pieces, k, Lookup(rest, k).value);
    }
  }

  lemma ParsePiecesStep(pieces: seq<string>)
    requires pieces != []
    ensures ParsePieces(pieces) == ParsePiece(pieces[0]) + ParsePieces(pieces[1..])
  {
  }

  lemma SingleEntry(v: Values, k: string)
    requires |v| <= 1 && Lookup(v, k).Some?
    ensures v == [Param(k, Lookup(v, k).value)]
  {
  }

  lemma FirstPieceHead(pieces: seq<string>, k: string, value: string)
    requires pieces != [] && ParsePiece(pieces[0]) == [Param(k, value)]
    ensures FirstPieceFor(pieces, k, value)
  {
  }

  lemma FirstPieceShift(pieces: seq<string>, k: string, value: string)
    requires pieces != [] && Lookup(ParsePiece(pieces[0]), k) == None
    requires FirstPieceFor(pieces[1..], k, value)
    ensures FirstPieceFor(pieces, k, value)
  {
    var i :| 0 <= i < |pieces[1..]|
      && ParsePiece(pieces[1..][i]) == [Param(k, value)]
      && (forall j :: 0 <= j < i ==> Lookup(ParsePiece(pieces[1..][j]), k) == None);
    assert pieces[1..][i] == pieces[i + 1];
    forall j | 0 <= j < i + 1
      ensures Lookup(ParsePiece(pieces[j]), k) == None
    {
      if j > 0 {
        assert pieces[1..][j - 1] == pieces[j];
      }
    }
  }


  lemma ParsePieceOfPiece(p: Param)
    requires Ascii(p.key) && Ascii(p.value)
    ensures ParsePiece(Piece(p)) == [p]
  {
    var ek := QueryEscape(p.key);
    var ev := QueryEscape(p.value);
    assert Piece(p) == ek + ['='] + ev;
    UnescapeEscape(p.key);
    UnescapeEscape(p.value);
    ParseEscapedPiece(ek, ev, p.key, p.value);
  }

  /** A piece made of two escaped halves and one `=` parses to the halves' unescapings. */
  lemma ParseEscapedPiece(ek: string, ev: string, k: string, v: string)
    requires forall i :: 0 <= i < |ek| ==> Escaped(ek[i])
    requires forall i :: 0 <= i < |ev| ==> Escaped(ev[i])
    requires QueryUnescape(ek) == Some(k) && QueryUnescape(ev) == Some(v)
    ensures ParsePiece(ek + ['='] + ev) == [Param(k, v)]
  {
    EscapedPieceShape(ek, ev);
  }

  /** Such a piece is kept by ParsePiece and cut exactly at its one `=`. */
  lemma EscapedPieceShape(ek: string, ev: string)
    requires forall i :: 0 <= i < |ek| ==> Escaped(ek[i])
    requires forall i :: 0 <= i < |ev| ==> Escaped(ev[i])
    ensures ek + ['='] + ev != []
    ensures ';' !in ek + ['='] + ev
    ensures Cut(ek + ['='] + ev, '=') == (ek, ev, true)
  {
    var piece := ek + ['='] + ev;
    assert '=' !in ek by {
      assert forall i :: 0 <= i < |ek| ==> ek[i] != '=';
    }
    CutFirst(ek, ev, '=');
    assert piece[|ek|] == '=';
    PieceAvoids(ek, ev, ';');
  }

  /** An escaped key and value joined by `=` hold no character outside the
      escaped alphabet other than that `=`. */
  lemma PieceAvoids(ek: string, ev: string, c: char)
    requires forall i :: 0 <= i < |ek| ==> Escaped(ek[i])
    requires forall i :: 0 <= i < |ev| ==> Escaped(ev[i])
    requires !Escaped(c) && c != '='
    ensures c !in ek + ['='] + ev
  {
    var piece := ek + ['='] + ev;
    forall i | 0 <= i < |piece|
      ensures piece[i] != c
    {
      if i < |ek| {
        assert piece[i] == ek[i];
      } else if i > |ek| {
        assert piece[i] == ev[i - |ek| - 1];
      }
    }
  }

  lemma {:induction false} ParsePiecesOfPieces(v: Values)
    requires AsciiValues(v)
    ensures ParsePieces(Pieces(v)) == v
  {
    if v != [] {
      ParsePieceOfPiece(v[0]);
      assert AsciiValues(v[1..]) by {
        assert forall i :: 0 <= i < |v[1..]| ==> v[1..][i] == v[i + 1];
      }
      ParsePiecesOfPieces(v[1..]);
      assert Pieces(v)[1..] == Pieces(v[1..]);
      ParsePiecesStep(Pieces(v));
    }
  }

  lemma PieceDelimiters(p: Param)
    ensures '&' !in Piece(p) && '#' !in Piece(p) && '?' !in Piece(p)
  {
    var ek := QueryEscape(p.key);
    var ev := QueryEscape(p.value);
    assert Piece(p) == ek + ['='] + ev;
    PieceAvoids(ek, ev, '&');
    PieceAvoids(ek, ev, '#');
    PieceAvoids(ek, ev, '?');
  }

  lemma PiecesEscaped(v: Values)
    ensures forall i :: 0 <= i < |Pieces(v)| ==> '&' !in Pieces(v)[i] && '#' !in Pieces(v)[i] && '?' !in Pieces(v)[i]
  {
    forall i | 0 <= i < |Pieces(v)|
      ensures '&' !in Pieces(v)[i] && '#' !in Pieces(v)[i] && '?' !in Pieces(v)[i]
    {
      PieceDelimiters(v[i]);
    }
  }

  lemma {:induction false} JoinParts(parts: seq<string>, sep: string, c: char)
    requires c !in sep
    requires forall i :: 0 <= i < |parts| ==> c !in parts[i]
    ensures c !in Join(parts, sep)
  {
    if |parts| > 1 {
      JoinParts(parts[1..], sep, c);
    }
  }

  /** Parsing an encoded parameter list gives back every entry: keys in sorted
      order, each key's values in the order they were added. */
  lemma ParseQueryEncode(v: Values)
    requires AsciiValues(v)
    ensures ParseQuery(Encode(v)) == SortByKey(v)
  {
    var sorted := SortByKey(v);
    var pieces := Pieces(sorted);
    assert AsciiValues(sorted) by {
      forall i | 0 <= i < |sorted|
        ensures Ascii(sorted[i].key) && Ascii(sorted[i].value)
      {
        assert sorted[i] in multiset(v);
      }
    }
    if sorted == [] {
      assert Encode(v) == [];
    } else {
      PiecesEscaped(sorted);
      SplitJoin(pieces, '&');
      ParsePiecesOfPieces(sorted);
    }
  }

  // ---------------------------------------------------------------------------
  // The query part of a URL.

  /** What url.Parse leaves in RawQuery: the text after the first `?`, with any
      `#fragment` removed first; empty when there is no `?`. */
  function RawQuery(url: string): (q: string)
    ensures '#' !in q
    ensures '?' !in url ==> q == ""
    ensures '#' !in url && '?' in url ==> url == Cut(url, '?').0 + "?" + q && '?' !in Cut(url, '?').0
  {
    var beforeFragment := Cut(url, '#').0;
    Cut(beforeFragment, '?').1
  }

  /** The query of `base?query` is `query` when neither half holds a delimiter. */
  lemma RawQueryOf(base: string, query: string)
    requires '?' !in base && '#' !in base && '#' !in query
    ensures RawQuery(base + "?" + query) == query
  {
    var url := base + "?" + query;
    assert '#' !in url;
    CutFirst(base, query, '?');
  }

  /** `base?query` starts with `base?`, has `query` as its raw query, and holds no `#`. */
  lemma QueryUrl(base: string, query: string)
    requires '?' !in base && '#' !in base && '#' !in query
    ensures var url := base + "?" + query;
      && |base| < |url| && url[..|base| + 1] == base + "?"
      && RawQuery(url) == query
      && '#' !in url
  {
    RawQueryOf(base, query);
    PrefixOfConcat(base + "?", query);
  }
}

=== FILE: text.dfy ===
/** String primitives the client relies on: Go's strings.Split, strings.Join and
    strings.Cut for one-character separators, byte-wise string ordering as used
    by sort.Strings, and decimal formatting of integers as fmt's %d prints it. */
module Text {

  import opened Common

  /** Number of occurrences of `c` in `s`. */
  function Count(s: string, c: char): nat
  {
    if s == [] then 0 else (if s[0] == c then 1 else 0) + Count(s[1..], c)
  }

  lemma {:induction false} CountConcat(a: string, b: string, c: char)
    ensures Count(a + b, c) == Count(a, c) + Count(b, c)
  {
    if a == [] {
      assert a + b == b;
    } else {
      assert (a + b)[1..] == a[1..] + b;
      CountConcat(a[1..], b, c);
    }
  }

  lemma {:induction false} CountAbsent(s: string, c: char)
    ensures Count(s, c) == 0 <==> c !in s
  {
    if s != [] {
      CountAbsent(s[1..], c);
      assert s == [s[0]] + s[1..];
    }
  }

  /** strings.Split(s, [sep]): the pieces of `s` between occurrences of `sep`.
      There is always at least one piece, one more than there are separators,
      and no piece contains the separator. */
  function Split(s: string, sep: char): (fields: seq<string>)
    ensures |fields| == Count(s, sep) + 1
    ensures forall i :: 0 <= i < |fields| ==> sep !in fields[i]
  {
    if s == [] then [[]]
    else
      var rest := Split(s[1..], sep);
      if s[0] == sep then [[]] + rest
      else [[s[0]] + rest[0]] + rest[1..]
  }

  /** strings.Join(parts, sep). */
  function Join(parts: seq<string>, sep: string): string
  {
    if |parts| == 0 then []
    else if |parts| == 1 then parts[0]
    else parts[0] + sep + Join(parts[1..], sep)
  }

  /** Joining the pieces of a split with the same separator gives back the input. */
  lemma {:induction false} JoinSplit(s: string, c: char)
    ensures Join(Split(s, c), [c]) == s
  {
    if s != [] {
      var rest := Split(s[1..], c);
      JoinSplit(s[1..], c);
      if s[0] == c {
        assert Split(s, c) == [[]] + rest;
        assert ([[]] + rest)[1..] == rest;
      } else {
        var fields := Split(s, c);
        if |rest| == 1 {
          assert fields == [[s[0]] + rest[0]];
        } else {
          assert fields[1..] == rest[1..];
          assert s == [s[0]] + s[1..];
        }
      }
    }
  }

  /** A string without the separator is one piece. */
  lemma {:induction false} SplitAbsent(a: string, c: char)
    requires c !in a
    ensures Split(a, c) == [a]
  {
    if a != [] {
      SplitAbsent(a[1..], c);
      assert a == [a[0]] + a[1..];
    }
  }

  /** A separator between two strings separates their pieces. */
  lemma {:induction false} SplitConcat(a: string, b: string, c: char)
    ensures Split(a + [c] + b, c) == Split(a, c) + Split(b, c)
  {
    if a == [] {
      assert a + [c] + b == [c] + b;
      assert ([c] + b)[1..] == b;
    } else {
      var s := a + [c] + b;
      assert s[0] == a[0];
      assert s[1..] == a[1..] + [c] + b;
      SplitConcat(a[1..], b, c);
    }
  }

  /** Splitting a join of separator-free pieces gives back the pieces. */
  lemma {:induction false} SplitJoin(parts: seq<string>, c: char)
    requires |parts| >= 1
    requires forall i :: 0 <= i < |parts| ==> c !in parts[i]
    ensures Split(Join(parts, [c]), c) == parts
  {
    if |parts| == 1 {
      SplitAbsent(parts[0], c);
    } else {
      SplitJoin(parts[1..], c);
      SplitAbsent(parts[0], c);
      SplitConcat(parts[0], Join(parts[1..], [c]), c);
      assert parts == [parts[0]] + parts[1..];
    }
  }

  /** Reference definition of the piece after the last `c` (the whole string
      when there is none), computed from the end of the string. */
  function AfterLast(s: string, c: char): (tail: string)
    ensures c !in tail
    ensures |tail| <= |s| && s[|s| - |tail|..] == tail
  {
    if s == [] then []
    else if s[|s| - 1] == c then []
    else
      var init := s[..|s| - 1];
      var t := AfterLast(init, c);
      assert s[|s| - |t| - 1..] == init[|init| - |t|..] + [s[|s| - 1]];
      t + [s[|s| - 1]]
  }

  lemma {:induction false} AfterLastConcat(a: string, b: string, c: char)
    requires c !in b
    ensures AfterLast(a + [c] + b, c) == b
  {
    var s := a + [c] + b;
    if b != [] {
      var b' := b[..|b| - 1];
      assert s[..|s| - 1] == a + [c] + b';
      assert s[|s| - 1] == b[|b| - 1];
      AfterLastConcat(a, b', c);
      assert b == b' + [b[|b| - 1]];
    }
  }

  lemma {:induction false} AfterLastAbsent(s: string, c: char)
    requires c !in s
    ensures AfterLast(s, c) == s
  {
    if s != [] {
      AfterLastAbsent(s[..|s| - 1], c);
      assert s == s[..|s| - 1] + [s[|s| - 1]];
    }
  }

  /** The last piece of a split is exactly the text after the last separator. */
  lemma {:induction false} LastFieldIsAfterLast(s: string, c: char)
    ensures Split(s, c)[|Split(s, c)| - 1] == AfterLast(s, c)
  {
    var fields := Split(s, c);
    JoinSplit(s, c);
    if |fields| == 1 {
      AfterLastAbsent(s, c);
    } else {
      var init := Join(fields[..|fields| - 1], [c]);
      JoinSnoc(fields[..|fields| - 1], fields[|fields| - 1], [c]);
      assert fields[..|fields| - 1] + [fields[|fields| - 1]] == fields;
      AfterLastConcat(init, fields[|fields| - 1], c);
    }
  }

  /** Appending one more part to a non-empty list of parts. */
  lemma {:induction false} JoinSnoc(parts: seq<string>, last: string, sep: string)
    requires |parts| >= 1
    ensures Join(parts + [last], sep) == Join(parts, sep) + sep + last
  {
    if |parts| == 1 {
      assert (parts + [last])[1..] == [last];
    } else {
      assert (parts + [last])[1..] == parts[1..] + [last];
      JoinSnoc(parts[1..], last, sep);
    }
  }

  /** strings.Cut(s, [c]): the text before the first `c` and the text after it,
      and whether there was one. */
  function Cut(s: string, c: char): (r: (string, string, bool))
    ensures r.2 ==> s == r.0 + [c] + r.1 && c !in r.0
    ensures !r.2 ==> c !in s && r.0 == s && r.1 == []
  {
    if s == [] then ([], [], false)
    else if s[0] == c then ([], s[1..], true)
    else
      var rest := Cut(s[1..], c);
      ([s[0]] + rest.0, rest.1, rest.2)
  }

  lemma PrefixOfConcat(a: string, b: string)
    ensures |a| <= |a + b| && (a + b)[..|a|] == a
  {
  }

  /** Cutting at the first occurrence of a delimiter that the head does not hold. */
  lemma {:induction false} CutFirst(a: string, b: string, c: char)
    requires c !in a
    ensures Cut(a + [c] + b, c) == (a, b, true)
  {
    if a == [] {
      assert [c] + b == a + [c] + b;
    } else {
      assert (a + [c] + b)[1..] == a[1..] + [c] + b;
      CutFirst(a[1..], b, c);
      assert [a[0]] + a[1..] == a;
    }
  }

  /** Cutting at an absent delimiter leaves the whole string. */
  lemma CutAbsent(s: string, c: char)
    requires c !in s
    ensures Cut(s, c) == (s, [], false)
  {
  }

  /** sort.Strings order: lexicographic by character code, a prefix first. */
  predicate Le(a: string, b: string)
  {
    if a == [] then true
    else if b == [] then false
    else if a[0] != b[0] then a[0] < b[0]
    else Le(a[1..], b[1..])
  }

  lemma {:induction false} LeTotal(a: string, b: string)
    ensures Le(a, b) || Le(b, a)
  {
    if a != [] && b != [] && a[0] == b[0] {
      LeTotal(a[1..], b[1..]);
    }
  }

  lemma {:induction false} LeTransitive(a: string, b: string, c: string)
    requires Le(a, b) && Le(b, c)
    ensures Le(a, c)
  {
    if a != [] && b != [] && c != [] && a[0] == b[0] && b[0] == c[0] {
      LeTransitive(a[1..], b[1..], c[1..]);
    }
  }

  lemma {:induction false} LeAntisymmetric(a: string, b: string)
    requires Le(a, b) && Le(b, a)
    ensures a == b
  {
    if a != [] && b != [] {
      LeAntisymmetric(a[1..], b[1..]);
      assert a == [a[0]] + a[1..] && b == [b[0]] + b[1..];
    }
  }

  // ---------------------------------------------------------------------------
  // Decimal formatting, fmt.Sprintf("%d", n).

  function DigitChar(d: int): char
    requires 0 <= d < 10
  {
    (48 + d) as char
  }

  predicate IsDigit(c: char)
  {
    '0' <= c <= '9'
  }

  function DigitValue(c: char): int
    requires IsDigit(c)
  {
    c as int - 48
  }

  /** The decimal digits of a natural number, most significant first, no leading zero. */
  function NatToString(n: nat): (s: string)
    ensures |s| >= 1 && forall i :: 0 <= i < |s| ==> IsDigit(s[i])
    ensures s[0] == '0' ==> n == 0
  {
    if n < 10 then [DigitChar(n)]
    else NatToString(n / 10) + [DigitChar(n % 10)]
  }

  /** fmt's %d: a minus sign for negative numbers, then the digits. */
  function Decimal(n: int): string
  {
    if n < 0 then "-" + NatToString(-n) else NatToString(n)
  }

  /** Value of a string of digits, most significant first. */
  function DigitsValue(s: string): nat
    requires forall i :: 0 <= i < |s| ==> IsDigit(s[i])
  {
    if s == [] then 0
    else DigitsValue(s[..|s| - 1]) * 10 + DigitValue(s[|s| - 1])
  }

  /** Reads back what Decimal prints: an optional minus sign and at least one digit. */
  function ParseDecimal(s: string): Option<int>
  {
    if |s| >= 2 && s[0] == '-' && forall i :: 1 <= i < |s| ==> IsDigit(s[i]) then
      Some(-(DigitsValue(s[1..]) as int))
    else if |s| >= 1 && forall i :: 0 <= i < |s| ==> IsDigit(s[i]) then
      Some(DigitsValue(s))
    else
      None
  }

  lemma {:induction false} NatToStringValue(n: nat)
    ensures DigitsValue(NatToString(n)) == n
  {
    if n >= 10 {
      NatToStringValue(n / 10);
      var s := NatToString(n);
      assert s[..|s| - 1] == NatToString(n / 10);
    }
  }

  /** Formatting an integer in decimal and reading it back gives the integer. */
  lemma DecimalRoundTrip(n: int)
    ensures ParseDecimal(Decimal(n)) == Some(n)
  {
    if n < 0 {
      NatToStringValue(-n);
      var s := Decimal(n);
      assert s[1..] == NatToString(-n);
    } else {
      NatToStringValue(n);
    }
  }
}
